=== FILE: README.md ===
# Pharos swap bot — a Dafny model of its control core

The bot in `index.js` swaps PHRS for USDT on the Pharos test network for every
wallet whose private key sits in the environment. It asks once how many
swaps to make per wallet. It then runs that many swap "slots" in turn. A
slot fetches a route from the DODO aggregator and submits the transaction.
Failed submissions are retried with proxy rotation, and failed slot attempts
are retried with a fresh route. At the end it prints totals.

This project models the part of the bot that decides what happens, not the
network calls themselves:

- `ProxyPool` (`proxy_pool.dfy`): the shared round-robin proxy selector
  `getNextProxy`. Its cursor is a single counter shared by the whole run.
- `JsText` and `ProxyList` (`js_text.dfy`, `proxy_list.dfy`): how proxy.txt
  becomes the pool, through `split('\n')`, `trim` and the blank-line filter.
- `PrivateKeys` (`private_keys.dfy`): `loadPrivateKeys`, which scans
  `PRIVATE_KEY_1`, `PRIVATE_KEY_2`, … up to the first unset one and keeps
  the well-formed keys.
- `JsParseInt` (`js_parse_int.dfy`): JavaScript's `parseInt` with no radix,
  after section 19.2.5 of ECMA-262. This is what reads the swap count.
- `Submit` (`submit.dfy`): `executeSwap` and its retry policy. A failure
  rotates to the next proxy while a pool exists and the retry count is below
  5. Otherwise it retries plainly while the count is below 10, and past that
  the error propagates. One shared counter drives both tracks.
- `Batch` (`batch.dfy`): `batchSwap`. It runs `count` slots of up to 3
  attempts each, with a 3000 ms pause before a retry and a 2000 ms pause
  between slots.
- `Run` (`run.dfy`): the main program. It checks the keys first, then the
  count. It runs one batch per wallet, each starting with the next proxy the
  pool hands out, with 5000 ms pauses in between, and sums the totals.
- `Oracle` and `Wrappers` (`oracle.dfy`, `wrappers.dfy`): the outcome
  streams that stand in for the network, plus `Option`/`Result`.

The network is an oracle: `Stream = nat -> bool`, where position n answers
"does the n-th route fetch / the n-th submission of this run succeed?".
Every operation is a pure function of the oracle and the positions it has
consumed. The model therefore covers every sequence of remote outcomes at
once. A pause is recorded as an event to be counted, not waited for.

The code allows up to 11 submissions per `executeSwap` call: the first one
plus 10 retries, all on one shared `retryCount`. The program's own log
line `Retrying swap ${retryCount + 1}/10` (index.js:224, 231) numbers the
retries out of 10, which reads as "at most 10 attempts". The model follows
the code
(`Submit.SubmitBounds`, `Submit.AllFailWithPool`).

## Model

| member | source | states |
|---|---|---|
| ProxyPool.NextProxy | index.js:83-88 | The proxy list never changes. No proxy is returned exactly when the list is empty, and then the cursor does not move. Otherwise the returned proxy is a member of the list and the cursor advances by one. |
| ProxyPool.RoundRobin | index.js:83-88 | For a non-empty list of size m, k successive calls from cursor s return list[(s+i) mod m] for i = 0..k-1 and leave the cursor at s+k. |
| ProxyPool.EmptyPoolNeverProxies | index.js:84 | With no proxies loaded, every call returns null and the shared cursor stays where it was. |
| ProxyPool.Fairness | index.js:85-86 | Any m consecutive calls on a list of m proxies hand out every proxy of the list, whatever the starting cursor. |
| JsText.Trim | index.js:73 | `trim` gives the contiguous middle of the line left after removing leading and trailing ECMAScript whitespace. The result is empty exactly for a blank line, and otherwise starts and ends with a non-space. |
| JsText.TrimIdempotent | index.js:73 | Trimming an already-trimmed entry changes nothing. |
| JsText.SplitLines | index.js:72 | `split('\n')` yields one more piece than the text has line feeds, and no piece contains a line feed. |
| JsText.JoinSplit | index.js:72 | Gluing the pieces of `split('\n')` back together with line feeds restores the file text exactly. |
| JsText.SplitJoin | index.js:72 | Splitting text glued from line-feed-free pieces gives exactly those pieces back, so split is a bijection onto such sequences. |
| ProxyList.CleanLinesSelects | index.js:73-74 | The trim-and-filter pass keeps, in order, the trimmed form of exactly the lines at the non-blank positions. |
| ProxyList.NonBlankLinesExact | index.js:74 | The reference list of kept positions is strictly increasing and holds a position exactly when the line there is not blank. |
| ProxyList.ParseProxyList | index.js:69-80 | A missing or unreadable proxy.txt (any read error) gives an empty pool. Otherwise there are at most (line feeds + 1) entries, each non-empty with no whitespace at either end. |
| ProxyList.ParseProxyListSpec | index.js:71-74 | The pool is the trimmed non-blank lines of proxy.txt in file order: same count as the non-blank lines, entry j is the trim of the j-th non-blank line, and blank lines are dropped. |
| PrivateKeys.ScanEnd | index.js:138 | The scan stops at the first index from 1 on whose variable is unset or empty. Every index before it is set. |
| PrivateKeys.KeptIndicesOrdered | index.js:138-141 | The kept indices are strictly increasing and all lie before the first unset variable, so nothing after a gap is ever read. |
| PrivateKeys.KeysAtKeptIndices | index.js:138-141 | There are as many keys as kept indices, and the j-th key is the value of the j-th kept variable. |
| PrivateKeys.KeptIndicesExact | index.js:138-141 | Within the scanned range an index is kept exactly when its value starts with "0x" and has length 66. A malformed key is skipped without ending the scan. |
| PrivateKeys.LoadPrivateKeys | index.js:135-144 | The while loop with its counter from 1 returns exactly the keys of the reference scan, each well formed. |
| JsParseInt.ParseInt | index.js:307 | A number comes back only when some character is not leading whitespace. A negative result needs a minus sign as the first non-space character. |
| JsParseInt.ParseIntDecimal | index.js:307 | `parseInt` reads back the decimal numeral of every natural number and ignores any tail that does not start with a digit (except "0x…"). |
| JsParseInt.ParseIntSkipsSpace | index.js:307 | Leading whitespace does not change what `parseInt` reads. |
| JsParseInt.ParseIntNegative | index.js:307 | A minus sign before a numeral gives the negated value. |
| JsParseInt.ParseIntHexExample | index.js:307 | Without a radix a "0x" prefix switches to base 16: "0x1A" reads as 26. |
| JsParseInt.ParseIntBarePrefix | index.js:307 | "0x" with no hex digit after it is NaN. |
| Run.SwapCountDecimal | index.js:307-311 | An answer made of spaces, a numeral n >= 1 and a non-digit tail is accepted as n. |
| Run.SwapCountZero | index.js:308 | The answer "0" is rejected. |
| Run.SwapCountNegative | index.js:308 | A negative number is rejected. |
| Run.SwapCountBlank | index.js:308 | A blank answer is NaN and is rejected. |
| Submit.ExecuteSwapTries | index.js:200-238 | The number of submissions from any retry count is read off the oracle alone: up to and including the first confirmed one, or the whole budget of 11 - retryCount when none is. |
| Submit.SubmitAnswer | index.js:200-238 | A fresh call makes submissions up to the first confirmed one, 11 at most, and is confirmed exactly when one of those 11 is. |
| Submit.ExecuteSwap | index.js:200-238 | Submissions stop at the first confirmed one. Every earlier submission failed. There is one retry (and one 2000 ms pause) per extra submission, and the budget is 11 - retryCount. The error propagates only once the budget is spent. The i-th retry rotates exactly when there is a pool and retryCount+i < 5. |
| Submit.RotationCount | index.js:222-228 | The number of rotations is 0 without a pool, and otherwise min(retries, 5 - retryCount). |
| Submit.OutcomeFrom | index.js:200-238 | From any retry count up to 10, the swap is confirmed exactly when one of the 11 - retryCount submissions the budget allows is. The error propagates exactly when the whole budget was used and the last submission failed. |
| Submit.SubmitOutcome | index.js:200-238 | From retryCount 0 the swap is confirmed exactly when one of the next 11 submissions is. |
| Submit.ErrorPropagates | index.js:230-236 | The error leaves `executeSwap` exactly when 11 submissions were made and the one at retryCount 10 failed. |
| Submit.SubmitBounds | index.js:222-234 | A call makes at most 11 submissions and at most 5 rotations, and exactly 5 rotations when a pool is loaded and more than 5 submissions were made. |
| Submit.RotateProxy | index.js:223-225 | Rotating takes proxies from the shared pool without changing the shared proxy list. |
| Submit.RotateRoundRobin | index.js:223-225 | n rotations over a non-empty pool advance the shared cursor by n, and the proxy last handed out is pool[(cursor+n-1) mod m]. Zero rotations change nothing. |
| Submit.SubmitSwap | index.js:200-238 | One call on a connection is the run of `executeSwap` from retryCount 0 at the same oracle position, for a pool that is non-empty exactly when the connection's is. It makes at most 11 submissions. With a pool it moves the shared cursor by min(retries, 5), which is the number of rotations the run records. Without a pool it leaves the connection untouched. |
| Submit.ThreeFailuresThenSuccess | index.js:218-228 | Three failures and then a confirmation, with a pool: 4 submissions, three rotations, and the cursor moved by 3. |
| Submit.AllFail | index.js:218-236 | When every submission fails, all 11 are made and the error propagates. Retry i rotates exactly when a pool is loaded and i < 5. |
| Submit.AllFailWithPool | index.js:218-236 | Every submission fails and a pool is loaded: 11 submissions, 5 rotations then 5 plain retries, the cursor moved by 5, and the error propagates. |
| Submit.AllFailWithoutPool | index.js:230-236 | Every submission fails and there is no pool: 11 submissions, 10 plain retries, the connection unchanged, and the error propagates. |
| Batch.TryOnce | index.js:261-271 | Each attempt consumes one route fetch. The fetch fails exactly when the route oracle says so, and then nothing is submitted and nothing else changes. A fetched route is submitted as the run of `executeSwap` from retryCount 0 at the wallet's submission cursor, which then moves by that run's submissions. With a pool the shared proxy cursor moves by the run's rotations; without one the connection is untouched. |
| Batch.TryOnceFollows | index.js:261-266 | An attempt's route fetch fails exactly when the route oracle says so. A submitted route made submissions up to the first confirmed one from the wallet's submission cursor, 11 at most. The attempt ends in a confirmed swap exactly when the route came back and one of the 11 submissions from the wallet's submission cursor is confirmed. |
| Batch.SlotFrom | index.js:249-280 | The attempt loop makes 1 to 3-tried attempts. All but the last failed, and the slot succeeds exactly when the last one did. A failed slot used all its attempts. A 3000 ms pause precedes every retry. The route cursor moves by one per attempt and the submission cursor by the attempts' submissions. With a pool the shared proxy cursor moves by the attempts' rotations; without one the connection is untouched. |
| Batch.SlotFollows | index.js:249-280 | Every attempt of the loop agrees with the oracles at the positions where it starts: one route fetch further on per earlier attempt, and the earlier attempts' submissions further on. |
| Batch.SlotOkIffSomeAttempt | index.js:249-266 | A slot counts as successful exactly when some attempt of it succeeded. |
| Batch.RunSlot | index.js:245-280 | A slot is well formed, consumes one route fetch per attempt and the submissions its attempts made, moves the shared proxy cursor by its attempts' rotations, and every attempt agrees with the oracles where it starts. |
| Batch.SlotOutcome | index.js:249-280 | A well-formed slot that agrees with the oracles succeeded exactly when, for one of its attempts, the route fetch succeeded and one of the 11 submissions from where that attempt started is confirmed. |
| Batch.BatchFrom | index.js:244-290 | The for loop runs max(count-i, 0) slots, all well formed. `successfulSwaps` is the number of successful slots, there is one 2000 ms pause fewer than slots, and the proxy list is unchanged. With a pool the shared cursor moves by exactly the rotations of the batch's submissions; without one the connection is untouched. |
| Batch.CountOkSpec | index.js:265 | The success count is at most the number of slots. It equals the number of slots exactly when every slot succeeded, and is 0 exactly when none did. |
| Batch.BatchSwap | index.js:241-291 | `batchSwap` returns a value in 0..count. It is count exactly when every slot succeeded and 0 exactly when none did. With a pool it hands the next wallet a cursor moved by exactly the batch's rotations. |
| Batch.BatchFollows | index.js:244-290 | The slots of a batch agree with the oracles from where the batch started, each slot starting where the previous one left both cursors, and the submission cursor advances by the batch's submissions. |
| Batch.CountOkConfirming | index.js:265 | For well-formed slots that agree with the oracles, the success count equals the reference count, read off the oracles, of slots in which an attempt found a route and then a confirmation. |
| Batch.SlotMatchesAnswer | index.js:249-280 | The attempt loop ends as the reference slot, read off the oracles alone, does: the same outcome, and both cursors left at the same positions. |
| Batch.BatchMatchesAnswer | index.js:244-290 | The for loop counts what the reference batch, read off the oracles alone from where it starts, counts. |
| Batch.BatchSwapOutcome | index.js:241-291 | `batchSwap` returns the number of slots in which some attempt found a route and then a confirmation among its 11 submissions. This equals the reference count `BatchAnswer`, which depends only on the oracles and the positions where the batch started. |
| Batch.BatchRouteAccounting | index.js:263 | The batch fetches one route per attempt, so the route position advances by the total number of attempts. |
| Batch.SlotFirstTry | index.js:261-266 | A slot whose first fetch and first submission succeed takes one attempt, one submission and no pause, and leaves the connection alone. |
| Batch.AllSucceed | index.js:244-290 | When every remote call succeeds, every slot succeeds first time, exactly one route and one submission are consumed per slot, and the connection never rotates. |
| Batch.RouteAlwaysFails | index.js:249-280 | When no route can be fetched, no slot succeeds, nothing is submitted, the connection never rotates, and each slot burns exactly 3 fetches. |
| Run.WalletProxyOf | index.js:318-328 | The one proxy cursor is shared by the whole run: with a non-empty list, wallet j is handed the proxy j places after the starting cursor, moved on by one place for every rotation made by the batches of the wallets before it, wrapping round the list. |
| Run.RunBot | index.js:296-340 | The run stops with "no private keys" exactly when the scan found none. It stops with "invalid number" exactly when there are keys but the count is rejected. Otherwise the count was accepted and there is one wallet per key. |
| Run.WalletsShape | index.js:318-339 | Every wallet runs a full batch of `count` slots, and the 5000 ms pause follows every wallet but the last. |
| Run.AttemptTotalIsProduct | index.js:330 | Adding `countNum` once per wallet gives wallets × count. |
| Run.SuccessTotalBound | index.js:329-330 | With full batches the successful total never exceeds the attempted total. |
| Run.PauseTotalCount | index.js:335-339 | One fewer pause than wallets. |
| Run.RunTotals | index.js:313-340 | On a completed run: totalAttempted = keys × count, 0 <= totalSuccessful <= totalAttempted, and keys-1 pauses between wallets. |
| Run.AllFullTotals | index.js:329-330 | When every batch succeeds in full, the two totals are equal. |
| Run.AllSucceedFull | index.js:318-330 | With every remote call succeeding, every wallet's batch returns `count`. |
| Run.InTurnProxies | index.js:318-319 | Wallets that each take the next proxy from the pool the previous one left receive exactly the successive answers of `getNextProxy`. |
| Run.AllSucceedInTurn | index.js:318-320 | With every remote call succeeding nothing rotates, so each wallet takes the next proxy from the pool exactly as the previous wallet left it. |
| Run.AllSucceedProxies | index.js:318-320 | With every remote call succeeding, the wallets receive exactly the successive answers of `getNextProxy`. |
| Run.AllSucceedProxyOf | index.js:319 | With every remote call succeeding and a non-empty pool at cursor c, wallet j is handed proxy (c+j) mod m. |
| Run.AllSucceedFromStart | index.js:319 | From a fresh pool, with every remote call succeeding, wallet j is handed proxy j mod m. |
| Run.AllSucceedTotals | index.js:329-340 | With every remote call succeeding, total successes equal total attempts. |
| Run.AllSucceedWalletProxies | index.js:318-320 | With every remote call succeeding and a non-empty proxy list, wallet j of the run is handed proxy j mod m of proxy.txt's list. |
| Run.AllSucceedRun | index.js:296-340 | With every remote call succeeding and a non-empty proxy list, total successes equal total attempts and wallet j is handed proxy j mod m. |

## Left out

- `getRandomSwapAmount` and `ethers.parseEther` (index.js:58-66, 251-252): the random amount affects no decision. Its conversion happens outside the `try` and cannot fail for amounts in the 0.001–0.002 range.
- `fetchWithTimeout`, `robustFetchDodoRoute` and the route URL: each route fetch, with its own retries and timeout, is one answer of the `route` stream.
- `robustFetchDodoRoute` (index.js:164-182) retries without limit on a network error or on status -1, so a fetch may never return and the program then hangs inside a slot. The model's fetch always answers: a failed answer stands for the "Invalid DODO API response" throw (index.js:192-194), the only route failure that reaches `batchSwap`. `Run.RunBot` is total, so runs that hang are not modelled.
- The transaction itself: `getNonce`, `sendTransaction` and `tx.wait` together are one answer of the `confirmed` stream.
- `getProviderWithProxy` and the proxy URL format: the model records only which proxy was handed out for a wallet (`Option<string>`), not the provider object.
- When building a proxied provider throws, `getProviderWithProxy` logs the error and returns a direct provider (index.js:122-131). The model still records the proxy handed out, so a wallet's `proxy` says which proxy the pool gave it, not which route its traffic takes.
- The assignment `wallet.provider = ...` (index.js:225) is recorded as if it takes effect. Whether it does depends on the ethers library, which is not part of this model; where a wallet's `provider` is read-only, the assignment is ignored and the retry reuses the old provider. The shared cursor moves either way, and the `confirmed` answers do not depend on the provider.
- Run.RunBot: every kept key is assumed to be valid hex, so `new ethers.Wallet(pk, provider)` (index.js:321) never throws. A key of the form "0x" plus 64 characters that are not all hex digits passes `loadPrivateKeys` and would make the main async function reject at that wallet, before its batch, with no handler to catch it.
- Submit.SubmitSwap: the rotations one call makes are applied to the connection after the submissions rather than between them. The oracle's answers do not depend on the proxy, so the final pool and the proxy last handed out are the same.
- The delays are counted (`retries`, `retryPauses`, `slotPauses`, `walletPauses`), not waited for, and there is no clock.
- Logging, the banner, readline, `process.exit` and the printed success rate (`toFixed`, floating point).
- JsParseInt.ParseInt: values of 2^53 and above are exact integers here, while JavaScript rounds them to the nearest double.
- String lengths are counted in Unicode scalar values, whereas JavaScript counts UTF-16 code units. This matters only for key or proxy text outside the Basic Multilingual Plane.
- The ABI, token addresses, chain id and RPC URLs: constants with no effect on control flow.

=== FILE: batch.dfy ===
/** `batchSwap(wallet, count)` (index.js:241-291): `count` swap slots for one
    wallet, one after the other. A slot makes up to 3 attempts; an attempt
    fetches a fresh route and, when that succeeds, submits it through
    `executeSwap`. The first successful attempt ends the slot. A failed
    attempt is followed by a 3000 ms pause when another attempt remains;
    every slot but the last is followed by a 2000 ms pause. */
module Batch {
  import opened Oracle
  import opened Submit

  /** Attempts per slot. */
  const MaxSwapAttempts: nat := 3

  /** The pause after a failed attempt that will be retried. */
  const AttemptPauseMs: nat := 3000

  /** The pause between two slots. */
  const SlotPauseMs: nat := 2000

  /** The remote answers: the n-th route fetch of the run succeeds when
      `Succeeds(route, n)` (the fetch with its own retries, seen as one
      step), and the n-th submission is confirmed when
      `Succeeds(confirmed, n)`. */
  datatype Remote = Remote(route: Stream, confirmed: Stream)

  /** Where the wallet stands: its connection (the shared pool and the
      proxy last handed out for it, which a rotation changes for the rest
      of the batch) and how many route fetches and submissions have been
      made. */
  datatype Cursor = Cursor(conn: Connection, routePos: nat, submitPos: nat)

  /** One attempt: the route fetch failed (nothing was submitted), or a
      route was submitted with the given outcome. */
  datatype Attempt = RouteFailed | Submitted(run: SubmitRun)
  {
    predicate Ok()
    {
      Submitted? && run.ok
    }
  }

  /** The submissions an attempt made: none when its route fetch failed. */
  function Submissions(a: Attempt): nat
  {
    if a.Submitted? then a.run.attempts else 0
  }

  /** The submissions of several attempts together. */
  function TotalSubmissions(atts: seq<Attempt>): nat
  {
    if |atts| == 0 then 0 else Submissions(atts[0]) + TotalSubmissions(atts[1..])
  }

  /** The proxy rotations an attempt made: none when its route fetch
      failed. */
  function AttemptRotations(a: Attempt): nat
  {
    if a.Submitted? then Rotations(a.run.retries) else 0
  }

  /** The rotations of several attempts together. */
  function TotalRotations(atts: seq<Attempt>): nat
  {
    if |atts| == 0 then 0 else AttemptRotations(atts[0]) + TotalRotations(atts[1..])
  }

  /** An attempt agrees with the remote answers at the positions it starts
      from: its route fetch failed exactly when the route stream says so; a
      submitted route made submissions up to the first confirmed one from
      `submitPos`, 11 at most; and it ended in a confirmed swap exactly when
      the route came back and one of those 11 submissions is confirmed. */
  predicate AttemptFollows(o: Remote, a: Attempt, routePos: nat, submitPos: nat)
  {
    && (a.RouteFailed? <==> !Succeeds(o.route, routePos))
    && (a.Submitted? ==> a.run.attempts == UntilSuccess(o.confirmed, submitPos, RetryLimit + 1))
    && (a.Ok() <==> Succeeds(o.route, routePos) && AnySucceed(o.confirmed, submitPos, RetryLimit + 1))
  }

  /** Consecutive attempts agree with the remote answers, each starting one
      route fetch and its predecessor's submissions further on. */
  predicate AttemptsFollow(o: Remote, atts: seq<Attempt>, routePos: nat, submitPos: nat)
    decreases |atts|
  {
    || |atts| == 0
    || (&& AttemptFollows(o, atts[0], routePos, submitPos)
        && AttemptsFollow(o, atts[1..], routePos + 1, submitPos + Submissions(atts[0])))
  }

  /** One slot: its attempts in order, whether it ended in a confirmed swap,
      and how many 3000 ms pauses it made. */
  datatype Slot = Slot(attempts: seq<Attempt>, ok: bool, retryPauses: nat)

  /** One attempt and where the wallet stands after it. */
  datatype Step = Step(attempt: Attempt, st: Cursor)

  /** One pass through the `try` block of the attempt loop. */
  function TryOnce(o: Remote, st: Cursor): (r: Step)
    ensures r.st.routePos == st.routePos + 1
    ensures r.st.conn.pool.proxies == st.conn.pool.proxies
    ensures r.attempt.RouteFailed? <==> !Succeeds(o.route, st.routePos)
    ensures r.attempt.RouteFailed? ==> r.st == st.(routePos := st.routePos + 1)
    ensures r.attempt.Submitted? ==> r.st.submitPos == st.submitPos + r.attempt.run.attempts
    ensures r.st.submitPos == st.submitPos + Submissions(r.attempt)
    ensures r.attempt.Submitted? ==>
      r.attempt.run == ExecuteSwap(|st.conn.pool.proxies| > 0, o.confirmed, st.submitPos, 0)
    ensures |st.conn.pool.proxies| == 0 ==> r.st.conn == st.conn
    ensures |st.conn.pool.proxies| > 0 ==>
      r.st.conn.pool.cursor == st.conn.pool.cursor + AttemptRotations(r.attempt)
  {
    if !Succeeds(o.route, st.routePos) then
      Step(RouteFailed, st.(routePos := st.routePos + 1))
    else
      var sent := SubmitSwap(st.conn, o.confirmed, st.submitPos);
      Step(Submitted(sent.run), Cursor(sent.conn, st.routePos + 1, st.submitPos + sent.run.attempts))
  }

  /** An attempt agrees with the remote answers: its route fetch fails
      exactly when the route stream says so, and it ends in a confirmed swap
      exactly when the route came back and one of the 11 submissions from
      the wallet's submission cursor is confirmed, after submitting up to
      the first confirmed one. */
  lemma TryOnceFollows(o: Remote, st: Cursor)
    ensures AttemptFollows(o, TryOnce(o, st).attempt, st.routePos, st.submitPos)
  {
    SubmitAnswer(|st.conn.pool.proxies| > 0, o.confirmed, st.submitPos);
  }

  /** Every attempt but the last failed. */
  predicate FailedBeforeLast(attempts: seq<Attempt>)
  {
    forall j :: 0 <= j < |attempts| - 1 ==> !attempts[j].Ok()
  }

  /** What a slot with `allowed` attempts left looks like: 1 to `allowed`
      attempts, none but the last successful, the slot successful exactly
      when its last attempt is, all of them used when it failed, and one
      pause per attempt but the last (a pause only when attempts remain). */
  predicate SlotShape(s: Slot, allowed: nat)
  {
    && 1 <= |s.attempts| <= allowed
    && FailedBeforeLast(s.attempts)
    && s.ok == s.attempts[|s.attempts| - 1].Ok()
    && (!s.ok ==> |s.attempts| == allowed)
    && s.retryPauses == |s.attempts| - 1
  }

  /** One slot and where the wallet stands after it. */
  datatype SlotRun = SlotRun(slot: Slot, st: Cursor)

  /** The attempt loop of a slot from its `tried`-th attempt on. */
  function SlotFrom(o: Remote, st: Cursor, tried: nat): (r: SlotRun)
    requires tried < MaxSwapAttempts
    ensures SlotShape(r.slot, MaxSwapAttempts - tried)
    ensures r.st.routePos == st.routePos + |r.slot.attempts|
    ensures r.st.submitPos == st.submitPos + TotalSubmissions(r.slot.attempts)
    ensures r.st.conn.pool.proxies == st.conn.pool.proxies
    ensures |st.conn.pool.proxies| == 0 ==> r.st.conn == st.conn
    ensures |st.conn.pool.proxies| > 0 ==>
      r.st.conn.pool.cursor == st.conn.pool.cursor + TotalRotations(r.slot.attempts)
    decreases MaxSwapAttempts - tried
  {
    var first := TryOnce(o, st);
    var a := first.attempt;
    CountsCons(a, []);
    if a.Ok() then SlotRun(Slot([a], true, 0), first.st)
    else if tried + 1 < MaxSwapAttempts then
      var next := SlotFrom(o, first.st, tried + 1);
      var rest := next.slot;
      CountsCons(a, rest.attempts);
      FailedCons(a, rest.attempts);
      SlotRun(Slot([a] + rest.attempts, rest.ok, rest.retryPauses + 1), next.st)
    else SlotRun(Slot([a], false, 0), first.st)
  }

  /** Every attempt of the loop agrees with the remote answers at the
      positions where it starts. */
  lemma {:induction false} SlotFollows(o: Remote, st: Cursor, tried: nat)
    requires tried < MaxSwapAttempts
    ensures AttemptsFollow(o, SlotFrom(o, st, tried).slot.attempts, st.routePos, st.submitPos)
    decreases MaxSwapAttempts - tried
  {
    var a, st', rest, last := SlotFromStep(o, st, tried);
    if !a.Ok() && tried + 1 < MaxSwapAttempts {
      SlotFollows(o, st', tried + 1);
    }
    AttemptsCons(o, a, rest, st.routePos, st.submitPos, st'.routePos, st'.submitPos);
  }

  /** The attempt loop takes one attempt `a`, which leaves the wallet at
      `st'`; when it failed and attempts remain, the loop goes on from
      there with the attempts `rest` and stops at `last`, and otherwise it
      stops at `st'`. */
  lemma SlotFromStep(o: Remote, st: Cursor, tried: nat)
    returns (a: Attempt, st': Cursor, rest: seq<Attempt>, last: Cursor)
    requires tried < MaxSwapAttempts
    ensures a == TryOnce(o, st).attempt && st' == TryOnce(o, st).st
    ensures st'.routePos == st.routePos + 1 && st'.submitPos == st.submitPos + Submissions(a)
    ensures AttemptFollows(o, a, st.routePos, st.submitPos)
    ensures SlotFrom(o, st, tried).slot.attempts == [a] + rest
    ensures SlotFrom(o, st, tried).st == last
    ensures !a.Ok() && tried + 1 < MaxSwapAttempts ==>
      rest == SlotFrom(o, st', tried + 1).slot.attempts && last == SlotFrom(o, st', tried + 1).st
      && SlotFrom(o, st, tried).slot.ok == SlotFrom(o, st', tried + 1).slot.ok
    ensures a.Ok() || tried + 1 >= MaxSwapAttempts ==>
      rest == [] && last == st' && SlotFrom(o, st, tried).slot.ok == a.Ok()
  {
    a, st' := TryOnce(o, st).attempt, TryOnce(o, st).st;
    TryOnceFollows(o, st);
    if !a.Ok() && tried + 1 < MaxSwapAttempts {
      rest, last := SlotFrom(o, st', tried + 1).slot.attempts, SlotFrom(o, st', tried + 1).st;
    } else {
      rest, last := [], st';
    }
  }

  /** A failed attempt in front of attempts of which all but the last
      failed. */
  lemma FailedCons(a: Attempt, rest: seq<Attempt>)
    requires !a.Ok() && |rest| > 0 && FailedBeforeLast(rest)
    ensures FailedBeforeLast([a] + rest)
    ensures ([a] + rest)[|rest|] == rest[|rest| - 1]
  {
    var atts := [a] + rest;
    forall j | 0 <= j < |atts| - 1
      ensures !atts[j].Ok()
    {
      if j > 0 {
        assert atts[j] == rest[j - 1];
      }
    }
  }

  /** The submissions and rotations of attempts with one more in front. */
  lemma CountsCons(a: Attempt, rest: seq<Attempt>)
    ensures TotalSubmissions([a] + rest) == Submissions(a) + TotalSubmissions(rest)
    ensures TotalRotations([a] + rest) == AttemptRotations(a) + TotalRotations(rest)
  {
    assert ([a] + rest)[1..] == rest;
  }

  /** Putting an attempt that agrees with the remote answers in front of
      attempts that agree with them from the next positions on. */
  lemma AttemptsCons(o: Remote, a: Attempt, rest: seq<Attempt>, routePos: nat, submitPos: nat,
                     nextRoute: nat, nextSubmit: nat)
    requires AttemptFollows(o, a, routePos, submitPos)
    requires nextRoute == routePos + 1 && nextSubmit == submitPos + Submissions(a)
    requires AttemptsFollow(o, rest, nextRoute, nextSubmit)
    ensures AttemptsFollow(o, [a] + rest, routePos, submitPos)
  {
    var atts := [a] + rest;
    assert atts[0] == a && atts[1..] == rest;
  }

  /** What a slot always looks like: 1 to 3 attempts, the first success
      ends it, a failed slot used all 3, and a 3000 ms pause follows every
      attempt but the last. */
  predicate WellFormedSlot(s: Slot)
  {
    SlotShape(s, MaxSwapAttempts)
  }

  /** A well-formed slot succeeded exactly when one of its attempts did. */
  lemma SlotOkIffSomeAttempt(s: Slot)
    requires WellFormedSlot(s)
    ensures s.ok <==> exists j :: 0 <= j < |s.attempts| && s.attempts[j].Ok()
  {
    if !s.ok {
      forall j | 0 <= j < |s.attempts|
        ensures !s.attempts[j].Ok()
      {
        if j < |s.attempts| - 1 {
          assert FailedBeforeLast(s.attempts);
        }
      }
    }
  }

  /** The indexed form of `AttemptsFollow`: attempt j starts j route
      fetches and the earlier attempts' submissions further on. */
  lemma {:induction false} AttemptFollowsAt(o: Remote, atts: seq<Attempt>, routePos: nat,
                                            submitPos: nat, j: nat)
    requires AttemptsFollow(o, atts, routePos, submitPos)
    requires j < |atts|
    ensures AttemptFollows(o, atts[j], routePos + j, submitPos + TotalSubmissions(atts[..j]))
    decreases j
  {
    if j > 0 {
      AttemptFollowsAt(o, atts[1..], routePos + 1, submitPos + Submissions(atts[0]), j - 1);
      assert atts[1..][j - 1] == atts[j];
      assert atts[..j][0] == atts[0] && atts[..j][1..] == atts[1..][..j - 1];
    }
  }

  /** Some attempt of `atts` found a route and then a confirmation among
      the 11 submissions from where it started. */
  predicate SomeAttemptConfirms(o: Remote, atts: seq<Attempt>, routePos: nat, submitPos: nat)
  {
    exists j :: 0 <= j < |atts| && Succeeds(o.route, routePos + j)
      && AnySucceed(o.confirmed, submitPos + TotalSubmissions(atts[..j]), RetryLimit + 1)
  }

  /** A well-formed slot that agrees with the remote answers succeeded
      exactly when one of its attempts found a route and then a
      confirmation. */
  lemma SlotOutcome(o: Remote, s: Slot, routePos: nat, submitPos: nat)
    requires WellFormedSlot(s)
    requires AttemptsFollow(o, s.attempts, routePos, submitPos)
    ensures s.ok <==> SomeAttemptConfirms(o, s.attempts, routePos, submitPos)
  {
    SlotOkIffSomeAttempt(s);
    forall j | 0 <= j < |s.attempts|
      ensures s.attempts[j].Ok() <==>
        (Succeeds(o.route, routePos + j)
         && AnySucceed(o.confirmed, submitPos + TotalSubmissions(s.attempts[..j]), RetryLimit + 1))
    {
      AttemptFollowsAt(o, s.attempts, routePos, submitPos, j);
    }
  }

  /** Every slot of `slots` is well formed. */
  predicate AllWellFormed(slots: seq<Slot>)
  {
    forall j :: 0 <= j < |slots| ==> WellFormedSlot(slots[j])
  }

  /** A slot as `batchSwap` runs it. */
  function RunSlot(o: Remote, st: Cursor): (r: SlotRun)
    ensures WellFormedSlot(r.slot)
    ensures r.st.routePos == st.routePos + |r.slot.attempts|
    ensures r.st.submitPos == st.submitPos + TotalSubmissions(r.slot.attempts)
    ensures r.st.conn.pool.proxies == st.conn.pool.proxies
    ensures |st.conn.pool.proxies| == 0 ==> r.st.conn == st.conn
    ensures |st.conn.pool.proxies| > 0 ==>
      r.st.conn.pool.cursor == st.conn.pool.cursor + TotalRotations(r.slot.attempts)
    ensures AttemptsFollow(o, r.slot.attempts, st.routePos, st.submitPos)
  {
    SlotFollows(o, st, 0);
    SlotFrom(o, st, 0)
  }

  /** The result of a batch: the slots in order, the `successfulSwaps`
      counter it returns, the 2000 ms pauses between slots, and where the
      wallet stands afterwards. */
  datatype BatchRun = BatchRun(slots: seq<Slot>, successes: nat, slotPauses: nat, st: Cursor)

  /** The proxy rotations of all slots together. */
  function BatchRotations(slots: seq<Slot>): nat
  {
    if |slots| == 0 then 0 else TotalRotations(slots[0].attempts) + BatchRotations(slots[1..])
  }

  /** The `for` loop of `batchSwap` from slot `i` on. */
  function BatchFrom(o: Remote, st: Cursor, count: int, i: nat): (r: BatchRun)
    ensures |r.slots| == if i < count then count - i else 0
    ensures AllWellFormed(r.slots)
    ensures r.successes == CountOk(r.slots)
    ensures r.slotPauses == if |r.slots| == 0 then 0 else |r.slots| - 1
    ensures r.st.conn.pool.proxies == st.conn.pool.proxies
    ensures |st.conn.pool.proxies| == 0 ==> r.st.conn == st.conn
    ensures |st.conn.pool.proxies| > 0 ==>
      r.st.conn.pool.cursor == st.conn.pool.cursor + BatchRotations(r.slots)
    decreases if i < count then count - i else 0
  {
    if i >= count then BatchRun([], 0, 0, st)
    else
      var first := RunSlot(o, st);
      var slot := first.slot;
      var rest := BatchFrom(o, first.st, count, i + 1);
      var r := BatchRun([slot] + rest.slots, (if slot.ok then 1 else 0) + rest.successes,
                        (if i < count - 1 then 1 else 0) + rest.slotPauses, rest.st);
      assert r.slots[1..] == rest.slots;
      assert AllWellFormed(r.slots) by {
        forall j | 0 <= j < |r.slots|
          ensures WellFormedSlot(r.slots[j])
        {
          if j > 0 {
            assert r.slots[j] == rest.slots[j - 1];
          }
        }
      }
      r
  }

  /** Every slot succeeded. */
  predicate AllOk(slots: seq<Slot>)
  {
    forall j :: 0 <= j < |slots| ==> slots[j].ok
  }

  /** No slot succeeded. */
  predicate NoneOk(slots: seq<Slot>)
  {
    forall j :: 0 <= j < |slots| ==> !slots[j].ok
  }

  /** The number of successful slots. */
  function CountOk(slots: seq<Slot>): nat
  {
    if |slots| == 0 then 0 else (if slots[0].ok then 1 else 0) + CountOk(slots[1..])
  }

  /** At most every slot succeeds; the count is the number of slots exactly
      when all of them succeeded, and 0 exactly when none did. */
  lemma {:induction false} CountOkSpec(slots: seq<Slot>)
    ensures CountOk(slots) <= |slots|
    ensures CountOk(slots) == |slots| <==> AllOk(slots)
    ensures CountOk(slots) == 0 <==> NoneOk(slots)
    decreases |slots|
  {
    if |slots| > 0 {
      var rest := slots[1..];
      CountOkSpec(rest);
      assert forall j :: 0 <= j < |rest| ==> rest[j] == slots[j + 1];
      assert AllOk(slots) <==> slots[0].ok && AllOk(rest) by {
        if slots[0].ok && AllOk(rest) {
          forall j | 0 <= j < |slots|
            ensures slots[j].ok
          {
            if j > 0 {
              assert slots[j] == rest[j - 1];
            }
          }
        }
      }
      assert NoneOk(slots) <==> !slots[0].ok && NoneOk(rest) by {
        if !slots[0].ok && NoneOk(rest) {
          forall j | 0 <= j < |slots|
            ensures !slots[j].ok
          {
            if j > 0 {
              assert slots[j] == rest[j - 1];
            }
          }
        }
      }
    }
  }

  /** `batchSwap(wallet, count)`: the number of successful slots is between
      0 and `count`. */
  function BatchSwap(o: Remote, st: Cursor, count: int): (r: BatchRun)
    ensures |r.slots| == if count > 0 then count else 0
    ensures 0 <= r.successes <= |r.slots|
    ensures r.successes == |r.slots| <==> AllOk(r.slots)
    ensures r.successes == 0 <==> NoneOk(r.slots)
    ensures r.st.conn.pool.proxies == st.conn.pool.proxies
    ensures |st.conn.pool.proxies| == 0 ==> r.st.conn == st.conn
    ensures |st.conn.pool.proxies| > 0 ==>
      r.st.conn.pool.cursor == st.conn.pool.cursor + BatchRotations(r.slots)
  {
    var r := BatchFrom(o, st, count, 0);
    CountOkSpec(r.slots);
    r
  }

  /** The attempts of all slots together. */
  function TotalAttempts(slots: seq<Slot>): nat
  {
    if |slots| == 0 then 0 else |slots[0].attempts| + TotalAttempts(slots[1..])
  }

  /** Every attempt fetches exactly one route: the route cursor advances by
      the number of attempts of the batch, and the proxy list is never
      changed, only the cursor into it. */
  lemma {:induction false} BatchRouteAccounting(o: Remote, st: Cursor, count: int, i: nat)
    ensures BatchFrom(o, st, count, i).st.routePos == st.routePos + TotalAttempts(BatchFrom(o, st, count, i).slots)
    decreases if i < count then count - i else 0
  {
    if i < count {
      var st' := RunSlot(o, st).st;
      BatchRouteAccounting(o, st', count, i + 1);
      var r := BatchFrom(o, st, count, i);
      assert r.slots[1..] == BatchFrom(o, st', count, i + 1).slots;
    }
  }

  /** The submissions of all slots together. */
  function BatchSubmissions(slots: seq<Slot>): nat
  {
    if |slots| == 0 then 0 else TotalSubmissions(slots[0].attempts) + BatchSubmissions(slots[1..])
  }

  /** Consecutive slots agree with the remote answers, each starting where
      the previous slot's attempts left the route and submission cursors. */
  predicate SlotsFollow(o: Remote, slots: seq<Slot>, routePos: nat, submitPos: nat)
    decreases |slots|
  {
    || |slots| == 0
    || (&& AttemptsFollow(o, slots[0].attempts, routePos, submitPos)
        && SlotsFollow(o, slots[1..], routePos + |slots[0].attempts|,
                       submitPos + TotalSubmissions(slots[0].attempts)))
  }

  /** The slots of a batch agree with the remote answers from where the
      batch started, and the submission cursor advances by the batch's
      submissions. */
  lemma {:induction false} BatchFollows(o: Remote, st: Cursor, count: int, i: nat)
    ensures SlotsFollow(o, BatchFrom(o, st, count, i).slots, st.routePos, st.submitPos)
    ensures BatchFrom(o, st, count, i).st.submitPos
         == st.submitPos + BatchSubmissions(BatchFrom(o, st, count, i).slots)
    decreases if i < count then count - i else 0
  {
    if i < count {
      var first := RunSlot(o, st);
      var rest := BatchFrom(o, first.st, count, i + 1);
      var r := BatchFrom(o, st, count, i);
      assert r.slots == [first.slot] + rest.slots && r.st == rest.st;
      BatchFollows(o, first.st, count, i + 1);
      SlotsCons(o, first.slot, rest.slots, st.routePos, st.submitPos, first.st.routePos, first.st.submitPos);
    }
  }

  /** Putting a slot that agrees with the remote answers in front of slots
      that agree with them from where it left the cursors. */
  lemma SlotsCons(o: Remote, s: Slot, rest: seq<Slot>, routePos: nat, submitPos: nat,
                  nextRoute: nat, nextSubmit: nat)
    requires AttemptsFollow(o, s.attempts, routePos, submitPos)
    requires nextRoute == routePos + |s.attempts|
    requires nextSubmit == submitPos + TotalSubmissions(s.attempts)
    requires SlotsFollow(o, rest, nextRoute, nextSubmit)
    ensures SlotsFollow(o, [s] + rest, routePos, submitPos)
    ensures BatchSubmissions([s] + rest) == TotalSubmissions(s.attempts) + BatchSubmissions(rest)
  {
    var slots := [s] + rest;
    assert slots[0] == s && slots[1..] == rest;
  }

  /** The reference count: how many slots, each read from the positions
      where the previous ones left the cursors, had an attempt that found a
      route and then a confirmation. */
  function CountConfirming(o: Remote, slots: seq<Slot>, routePos: nat, submitPos: nat): nat
    decreases |slots|
  {
    if |slots| == 0 then 0
    else
      var first := if SomeAttemptConfirms(o, slots[0].attempts, routePos, submitPos) then 1 else 0;
      first + CountConfirming(o, slots[1..], routePos + |slots[0].attempts|,
                              submitPos + TotalSubmissions(slots[0].attempts))
  }

  /** For well-formed slots that agree with the remote answers, the success
      count is the reference count read off the answers. */
  lemma {:induction false} CountOkConfirming(o: Remote, slots: seq<Slot>, routePos: nat, submitPos: nat)
    requires AllWellFormed(slots)
    requires SlotsFollow(o, slots, routePos, submitPos)
    ensures CountOk(slots) == CountConfirming(o, slots, routePos, submitPos)
    decreases |slots|
  {
    if |slots| > 0 {
      SlotOutcome(o, slots[0], routePos, submitPos);
      assert AllWellFormed(slots[1..]) by {
        forall j | 0 <= j < |slots[1..]|
          ensures WellFormedSlot(slots[1..][j])
        {
          assert slots[1..][j] == slots[j + 1];
        }
      }
      CountOkConfirming(o, slots[1..], routePos + |slots[0].attempts|,
                        submitPos + TotalSubmissions(slots[0].attempts));
    }
  }

  /** What a slot comes to by the remote answers alone: whether it ended in
      a confirmed swap, and the route and submission positions after it. */
  datatype Tally = Tally(ok: bool, routeEnd: nat, submitEnd: nat)

  /** The reference slot, read off the remote answers from the given
      positions with `left` attempts to go: each attempt reads one route
      answer and, when the route came back, the submission answers up to the
      first confirmed one, 11 at most; the first confirmed swap ends the
      slot, and so does the last permitted attempt. */
  function SlotAnswer(o: Remote, routePos: nat, submitPos: nat, left: nat): Tally
    decreases left
  {
    var routed := Succeeds(o.route, routePos);
    var used := if routed then UntilSuccess(o.confirmed, submitPos, RetryLimit + 1) else 0;
    var confirmed := routed && AnySucceed(o.confirmed, submitPos, RetryLimit + 1);
    if confirmed || left <= 1 then Tally(confirmed, routePos + 1, submitPos + used)
    else SlotAnswer(o, routePos + 1, submitPos + used, left - 1)
  }

  /** The reference count of `n` slots run one after the other from the
      given positions: how many of them end in a confirmed swap. */
  function BatchAnswer(o: Remote, routePos: nat, submitPos: nat, n: nat): nat
    decreases n
  {
    if n == 0 then 0
    else
      var t := SlotAnswer(o, routePos, submitPos, MaxSwapAttempts);
      (if t.ok then 1 else 0) + BatchAnswer(o, t.routeEnd, t.submitEnd, n - 1)
  }

  /** The attempt loop from its `tried`-th attempt on comes to what the
      remote answers dictate: the same outcome, and both cursors left where
      the reference slot leaves them. */
  lemma {:induction false} SlotMatchesAnswer(o: Remote, st: Cursor, tried: nat)
    requires tried < MaxSwapAttempts
    ensures SlotFrom(o, st, tried).slot.ok
         == SlotAnswer(o, st.routePos, st.submitPos, MaxSwapAttempts - tried).ok
    ensures SlotFrom(o, st, tried).st.routePos
         == SlotAnswer(o, st.routePos, st.submitPos, MaxSwapAttempts - tried).routeEnd
    ensures SlotFrom(o, st, tried).st.submitPos
         == SlotAnswer(o, st.routePos, st.submitPos, MaxSwapAttempts - tried).submitEnd
    decreases MaxSwapAttempts - tried
  {
    var a, st', rest, last := SlotFromStep(o, st, tried);
    SlotAnswerStep(o, a, st.routePos, st.submitPos, MaxSwapAttempts - tried, st'.routePos, st'.submitPos);
    if !a.Ok() && tried + 1 < MaxSwapAttempts {
      SlotMatchesAnswer(o, st', tried + 1);
    }
  }

  /** The reference slot takes one step as an attempt that agrees with the
      remote answers does: it stops after that attempt when it confirmed or
      was the last one, and otherwise goes on from the positions after it. */
  lemma SlotAnswerStep(o: Remote, a: Attempt, routePos: nat, submitPos: nat, left: nat,
                       nextRoute: nat, nextSubmit: nat)
    requires AttemptFollows(o, a, routePos, submitPos)
    requires nextRoute == routePos + 1 && nextSubmit == submitPos + Submissions(a)
    ensures a.Ok() || left <= 1 ==> SlotAnswer(o, routePos, submitPos, left) == Tally(a.Ok(), nextRoute, nextSubmit)
    ensures !a.Ok() && left > 1 ==>
      SlotAnswer(o, routePos, submitPos, left) == SlotAnswer(o, nextRoute, nextSubmit, left - 1)
  {
  }

  /** The `for` loop from slot `i` on counts what the remote answers
      dictate from where it starts. */
  lemma {:induction false} BatchMatchesAnswer(o: Remote, st: Cursor, count: int, i: nat)
    ensures BatchFrom(o, st, count, i).successes
         == BatchAnswer(o, st.routePos, st.submitPos, if i < count then count - i else 0)
    decreases if i < count then count - i else 0
  {
    if i < count {
      var first := RunSlot(o, st);
      var t := SlotAnswer(o, st.routePos, st.submitPos, MaxSwapAttempts);
      SlotMatchesAnswer(o, st, 0);
      assert first.slot.ok == t.ok && first.st.routePos == t.routeEnd && first.st.submitPos == t.submitEnd;
      BatchMatchesAnswer(o, first.st, count, i + 1);
      assert BatchFrom(o, st, count, i).successes
          == (if first.slot.ok then 1 else 0) + BatchFrom(o, first.st, count, i + 1).successes;
    }
  }

  /** `batchSwap` returns the number of slots in which some attempt found a
      route and then a confirmation, as the remote answers dictate: the
      count is fixed by the answers from where the batch starts. */
  lemma BatchSwapOutcome(o: Remote, st: Cursor, count: int)
    ensures BatchSwap(o, st, count).successes
         == CountConfirming(o, BatchSwap(o, st, count).slots, st.routePos, st.submitPos)
    ensures BatchSwap(o, st, count).successes
         == BatchAnswer(o, st.routePos, st.submitPos, if count > 0 then count else 0)
  {
    BatchSwapConfirming(o, st, count);
    BatchSwapAnswer(o, st, count);
  }

  /** The first half of `BatchSwapOutcome`: the count read off the slots. */
  lemma BatchSwapConfirming(o: Remote, st: Cursor, count: int)
    ensures BatchSwap(o, st, count).successes
         == CountConfirming(o, BatchSwap(o, st, count).slots, st.routePos, st.submitPos)
  {
    BatchFollows(o, st, count, 0);
    CountOkConfirming(o, BatchFrom(o, st, count, 0).slots, st.routePos, st.submitPos);
  }

  /** The second half of `BatchSwapOutcome`: the reference count. */
  lemma BatchSwapAnswer(o: Remote, st: Cursor, count: int)
    ensures BatchSwap(o, st, count).successes
         == BatchAnswer(o, st.routePos, st.submitPos, if count > 0 then count else 0)
  {
    BatchMatchesAnswer(o, st, count, 0);
    assert BatchSwap(o, st, count).successes == BatchFrom(o, st, count, 0).successes;
  }

  /** A slot whose route fetch and first submission both succeed takes one
      attempt, makes no pause and leaves the connection as it was. */
  lemma SlotFirstTry(o: Remote, st: Cursor)
    requires Succeeds(o.route, st.routePos) && Succeeds(o.confirmed, st.submitPos)
    ensures RunSlot(o, st).slot == Slot([Submitted(SubmitRun(true, 1, []))], true, 0)
    ensures RunSlot(o, st).st == Cursor(st.conn, st.routePos + 1, st.submitPos + 1)
  {
  }

  /** When every route fetch and every submission succeeds, every slot
      succeeds at its first attempt: the counter reaches the number of
      slots, no proxy is rotated, and one route and one submission are used
      per slot. */
  lemma {:induction false} AllSucceed(o: Remote, st: Cursor, count: int, i: nat)
    requires forall k :: Succeeds(o.route, k)
    requires forall k :: Succeeds(o.confirmed, k)
    ensures BatchFrom(o, st, count, i).successes == |BatchFrom(o, st, count, i).slots|
    ensures BatchFrom(o, st, count, i).st ==
      Cursor(st.conn, st.routePos + |BatchFrom(o, st, count, i).slots|,
             st.submitPos + |BatchFrom(o, st, count, i).slots|)
    decreases if i < count then count - i else 0
  {
    if i < count {
      SlotFirstTry(o, st);
      var st' := Cursor(st.conn, st.routePos + 1, st.submitPos + 1);
      AllSucceed(o, st', count, i + 1);
    }
  }

  /** When no route can be fetched, nothing is ever submitted: every slot
      spends its 3 attempts, the counter stays 0 and the connection and the
      submission cursor are untouched. */
  lemma {:induction false} RouteAlwaysFails(o: Remote, st: Cursor, count: int, i: nat)
    requires forall k :: !Succeeds(o.route, k)
    ensures BatchFrom(o, st, count, i).successes == 0
    ensures BatchFrom(o, st, count, i).st ==
      st.(routePos := st.routePos + MaxSwapAttempts * |BatchFrom(o, st, count, i).slots|)
    decreases if i < count then count - i else 0
  {
    if i < count {
      var st' := st.(routePos := st.routePos + MaxSwapAttempts);
      assert RunSlot(o, st).st == st';
      assert !RunSlot(o, st).slot.ok;
      RouteAlwaysFails(o, st', count, i + 1);
    }
  }
}

=== FILE: js_parse_int.dfy ===
/** JavaScript's global `parseInt` called with the radix omitted, as the
    swap-count prompt uses it (index.js:307), after section 19.2.5 of
    ECMA-262: skip leading whitespace, take an optional sign, switch to
    base 16 on a "0x"/"0X" prefix, then read the longest run of digits;
    no digit at all gives NaN, modelled as `None`. */
module JsParseInt {
  import opened Wrappers
  import opened JsText

  /** The value of `c` as a digit of any radix up to 36 (0-9, then a-z or
      A-Z for 10-35). */
  function DigitValue(c: char): (v: Option<nat>)
    ensures v.Some? ==> v.value < 36
  {
    if '0' <= c <= '9' then Some(c as nat - '0' as nat)
    else if 'a' <= c <= 'z' then Some(c as nat - 'a' as nat + 10)
    else if 'A' <= c <= 'Z' then Some(c as nat - 'A' as nat + 10)
    else None
  }

  predicate IsDigit(c: char, radix: nat)
  {
    DigitValue(c).Some? && DigitValue(c).value < radix
  }

  predicate AllDigits(s: string, radix: nat)
  {
    forall i :: 0 <= i < |s| ==> IsDigit(s[i], radix)
  }

  /** The length of the longest prefix of `s` made of digits of `radix`. */
  function DigitRun(s: string, radix: nat): (n: nat)
    ensures n <= |s|
    ensures AllDigits(s[..n], radix)
    ensures n < |s| ==> !IsDigit(s[n], radix)
  {
    if |s| == 0 || !IsDigit(s[0], radix) then 0
    else
      var n := 1 + DigitRun(s[1..], radix);
      assert s[..n] == [s[0]] + s[1..][..n - 1];
      n
  }

  /** The number a string of digits denotes in `radix`, most significant
      digit first. */
  function DigitsValue(s: string, radix: nat): nat
    requires AllDigits(s, radix)
  {
    if |s| == 0 then 0
    else radix * DigitsValue(s[..|s| - 1], radix) + DigitValue(s[|s| - 1]).value
  }

  /** Everything after the sign: a hex prefix picks radix 16, otherwise
      radix 10; then the leading run of digits, if there is one. */
  function ParseUnsigned(u: string): Option<nat>
  {
    var hex := |u| >= 2 && u[0] == '0' && (u[1] == 'x' || u[1] == 'X');
    var radix := if hex then 16 else 10;
    var body := if hex then u[2..] else u;
    var n := DigitRun(body, radix);
    if n == 0 then None else Some(DigitsValue(body[..n], radix))
  }

  /** `parseInt(s)`: `None` stands for NaN. A negative result needs a minus
      sign as the first non-space character, and a blank string is NaN. */
  function ParseInt(s: string): (r: Option<int>)
    ensures r.Some? ==> LeadingSpace(s) < |s|
    ensures r.Some? && r.value < 0 ==> s[LeadingSpace(s)] == '-'
  {
    var t := s[LeadingSpace(s)..];
    var negative := |t| > 0 && t[0] == '-';
    var u := if |t| > 0 && (t[0] == '-' || t[0] == '+') then t[1..] else t;
    match ParseUnsigned(u)
    case None => None
    case Some(v) => Some(if negative then -(v as int) else v as int)
  }

  /** The digit character for `d`. */
  function DigitChar(d: nat): (c: char)
    requires d < 10
    ensures IsDigit(c, 10) && DigitValue(c) == Some(d)
  {
    (d + '0' as nat) as char
  }

  /** The decimal numeral of `n`, as `String(n)` writes it: digits only, and
      no leading zero except for zero itself. */
  function DecimalString(n: nat): (s: string)
    ensures |s| >= 1
    ensures AllDigits(s, 10)
    ensures s[0] == '0' ==> n == 0 && |s| == 1
  {
    if n < 10 then [DigitChar(n)]
    else DecimalString(n / 10) + [DigitChar(n % 10)]
  }

  /** A decimal numeral denotes the number it was written from. */
  lemma {:induction false} DecimalValue(n: nat)
    ensures DigitsValue(DecimalString(n), 10) == n
  {
    if n >= 10 {
      var s := DecimalString(n);
      assert s[..|s| - 1] == DecimalString(n / 10);
      DecimalValue(n / 10);
    }
  }

  /** The digit run of a numeral followed by anything that does not begin
      with a digit is exactly the numeral. */
  lemma {:induction false} DigitRunStops(d: string, tail: string, radix: nat)
    requires AllDigits(d, radix)
    requires tail == [] || !IsDigit(tail[0], radix)
    ensures DigitRun(d + tail, radix) == |d|
    decreases |d|
  {
    if |d| > 0 {
      assert (d + tail)[1..] == d[1..] + tail;
      DigitRunStops(d[1..], tail, radix);
    } else {
      assert d + tail == tail;
    }
  }

  /** Leading whitespace is skipped. */
  lemma {:induction false} LeadingSpaceOfPrefix(ws: string, s: string)
    requires AllSpace(ws)
    ensures LeadingSpace(ws + s) == |ws| + LeadingSpace(s)
    decreases |ws|
  {
    if |ws| > 0 {
      assert (ws + s)[1..] == ws[1..] + s;
      LeadingSpaceOfPrefix(ws[1..], s);
    } else {
      assert ws + s == s;
    }
  }

  /** Whitespace in front of the input does not change what `parseInt`
      reads. */
  lemma ParseIntSkipsSpace(ws: string, s: string)
    requires AllSpace(ws)
    ensures ParseInt(ws + s) == ParseInt(s)
  {
    LeadingSpaceOfPrefix(ws, s);
    assert (ws + s)[|ws| + LeadingSpace(s)..] == s[LeadingSpace(s)..];
  }

  /** After the sign, a numeral followed by a non-digit reads as its value. */
  lemma ParseUnsignedDecimal(n: nat, tail: string)
    requires tail == [] || !IsDigit(tail[0], 10)
    requires n == 0 && tail != [] ==> tail[0] != 'x' && tail[0] != 'X'
    ensures ParseUnsigned(DecimalString(n) + tail) == Some(n)
  {
    var d := DecimalString(n);
    var u := d + tail;
    assert u[0] == d[0];
    if |d| >= 2 {
      assert u[1] == d[1];
    } else if tail != [] {
      assert u[1] == tail[0];
    }
    DigitRunStops(d, tail, 10);
    assert u[..|d|] == d;
    DecimalValue(n);
  }

  /** A decimal digit is neither whitespace nor a sign. */
  lemma DecimalDigitIsPlain(c: char)
    requires IsDigit(c, 10)
    ensures '0' <= c <= '9'
    ensures !IsSpace(c) && c != '-' && c != '+'
  {
  }

  /** `parseInt` reads back the decimal numeral of any natural number, and
      ignores whatever follows it as long as that does not start with a
      digit; the one exception is "0" followed by "x" or "X", which turns
      into a hex prefix. */
  lemma ParseIntDecimal(n: nat, tail: string)
    requires tail == [] || !IsDigit(tail[0], 10)
    requires n == 0 && tail != [] ==> tail[0] != 'x' && tail[0] != 'X'
    ensures ParseInt(DecimalString(n) + tail) == Some(n)
  {
    var s := DecimalString(n) + tail;
    assert s[0] == DecimalString(n)[0];
    DecimalDigitIsPlain(s[0]);
    assert LeadingSpace(s) == 0;
    assert s[0..] == s;
    ParseUnsignedDecimal(n, tail);
  }

  /** A minus sign in front of a numeral negates it. */
  lemma ParseIntNegative(n: nat)
    ensures ParseInt("-" + DecimalString(n)) == Some(-(n as int))
  {
    var d := DecimalString(n);
    var s := "-" + d;
    assert s[0] == '-';
    assert LeadingSpace(s) == 0;
    assert s[0..] == s;
    assert s[1..] == d + [];
    ParseUnsignedDecimal(n, []);
  }

  /** A "0x" prefix switches to hexadecimal. */
  lemma ParseIntHexExample()
    ensures ParseInt("0x1A") == Some(26)
  {
    var s := "0x1A";
    assert LeadingSpace(s) == 0;
    assert s[0..] == s;
    assert s[2..] == "1A";
    assert DigitRun("1A", 16) == 2;
    assert "1A"[..2] == "1A";
    assert "1A"[..1] == "1";
    assert "1"[..0] == "";
  }

  /** A hex prefix with no hex digit after it is NaN. */
  lemma ParseIntBarePrefix()
    ensures ParseInt("0x") == None
  {
    var s := "0x";
    assert LeadingSpace(s) == 0;
    assert s[0..] == s;
    assert s[2..] == "";
  }
}

=== FILE: js_text.dfy ===
/** The two JavaScript string operations the proxy-list loader relies on:
    `String.prototype.trim` and `String.prototype.split('\n')`. */
module JsText {

  /** The characters `trim` removes: WhiteSpace and LineTerminator of
      ECMA-262 (sections 12.2 and 12.3), i.e. TAB, VT, FF, the BOM, every
      space separator of category Zs, LF, CR, LS and PS. */
  predicate IsSpace(c: char)
  {
    || c == '\t' || c == '\n' || c == '\U{000B}' || c == '\U{000C}' || c == '\r'
    || c == ' ' || c == '\U{00A0}' || c == '\U{1680}' || '\U{2000}' <= c <= '\U{200A}'
    || c == '\U{2028}' || c == '\U{2029}' || c == '\U{202F}' || c == '\U{205F}'
    || c == '\U{3000}' || c == '\U{FEFF}'
  }

  /** A string that is empty or holds only whitespace. */
  predicate AllSpace(s: string)
  {
    forall i :: 0 <= i < |s| ==> IsSpace(s[i])
  }

  /** The length of the run of whitespace that starts `s`. */
  function LeadingSpace(s: string): (n: nat)
    ensures n <= |s|
    ensures forall i :: 0 <= i < n ==> IsSpace(s[i])
    ensures n < |s| ==> !IsSpace(s[n])
  {
    if |s| == 0 || !IsSpace(s[0]) then 0 else 1 + LeadingSpace(s[1..])
  }

  /** The length of the run of whitespace that ends `s`. */
  function TrailingSpace(s: string): (n: nat)
    ensures n <= |s|
    ensures forall i :: |s| - n <= i < |s| ==> IsSpace(s[i])
    ensures n < |s| ==> !IsSpace(s[|s| - n - 1])
  {
    if |s| == 0 || !IsSpace(s[|s| - 1]) then 0 else 1 + TrailingSpace(s[..|s| - 1])
  }

  /** `trim`: the slice of `s` left after removing all leading and all
      trailing whitespace. It is empty exactly for blank strings, and
      otherwise starts and ends with a non-space character. */
  function Trim(s: string): (r: string)
    ensures r == [] <==> AllSpace(s)
    ensures r != [] ==> !IsSpace(r[0]) && !IsSpace(r[|r| - 1])
    ensures LeadingSpace(s) + |r| <= |s|
    ensures r == s[LeadingSpace(s)..LeadingSpace(s) + |r|]
    ensures forall i :: LeadingSpace(s) + |r| <= i < |s| ==> IsSpace(s[i])
  {
    var t := s[LeadingSpace(s)..];
    t[..|t| - TrailingSpace(t)]
  }

  /** Trimming twice is trimming once. */
  lemma TrimIdempotent(s: string)
    ensures Trim(Trim(s)) == Trim(s)
  {
    var r := Trim(s);
    if r != [] {
      assert LeadingSpace(r) == 0;
      assert TrailingSpace(r) == 0;
    }
  }

  /** The number of line feeds in `s`. */
  function NewlineCount(s: string): nat
  {
    if |s| == 0 then 0 else (if s[0] == '\n' then 1 else 0) + NewlineCount(s[1..])
  }

  /** `split('\n')`: the pieces of `s` between line feeds, in order. There is
      always one piece more than there are line feeds (the empty string
      splits into one empty piece), and no piece holds a line feed. */
  function SplitLines(s: string): (r: seq<string>)
    ensures |r| == NewlineCount(s) + 1
    ensures forall i :: 0 <= i < |r| ==> '\n' !in r[i]
  {
    if |s| == 0 then [""]
    else
      var rest := SplitLines(s[1..]);
      if s[0] == '\n' then [""] + rest
      else [[s[0]] + rest[0]] + rest[1..]
  }

  /** The inverse of `SplitLines`: the pieces glued back with line feeds. */
  function JoinLines(ls: seq<string>): string
    requires |ls| >= 1
  {
    if |ls| == 1 then ls[0] else ls[0] + "\n" + JoinLines(ls[1..])
  }

  /** Gluing the pieces of a split back together gives the original text. */
  lemma {:induction false} JoinSplit(s: string)
    ensures JoinLines(SplitLines(s)) == s
  {
    if |s| > 0 {
      var rest := SplitLines(s[1..]);
      JoinSplit(s[1..]);
      if s[0] == '\n' {
        assert SplitLines(s) == [""] + rest;
        assert ([""] + rest)[1..] == rest;
        assert JoinLines(SplitLines(s)) == "" + "\n" + JoinLines(rest);
        assert s == [s[0]] + s[1..];
      } else {
        JoinConsHead(s[0], rest);
        assert s == [s[0]] + s[1..];
      }
    }
  }

  /** Putting a character in front of the first piece puts it in front of
      the joined text. */
  lemma JoinConsHead(c: char, ls: seq<string>)
    requires |ls| >= 1
    ensures JoinLines([[c] + ls[0]] + ls[1..]) == [c] + JoinLines(ls)
  {
    var h := [c] + ls[0];
    var ls' := [h] + ls[1..];
    if |ls| == 1 {
      assert ls' == [h];
    } else {
      assert ls'[0] == h && ls'[1..] == ls[1..];
      ConsGlue(c, ls[0], JoinLines(ls[1..]));
    }
  }

  /** A character in front of `a` stays in front when `a` is glued to `b`
      with a line feed. */
  lemma ConsGlue(c: char, a: string, b: string)
    ensures [c] + a + "\n" + b == [c] + (a + "\n" + b)
  {
  }

  /** Splitting text that starts with a line-feed-free prefix `a` glues `a`
      onto the first piece and leaves the other pieces as they were. */
  lemma {:induction false} SplitPrefix(a: string, t: string)
    requires '\n' !in a
    ensures SplitLines(a + t) == [a + SplitLines(t)[0]] + SplitLines(t)[1..]
    decreases |a|
  {
    if |a| > 0 {
      assert (a + t)[1..] == a[1..] + t;
      assert (a + t)[0] == a[0];
      SplitPrefix(a[1..], t);
      assert [a[0]] + (a[1..] + SplitLines(t)[0]) == a + SplitLines(t)[0];
    } else {
      assert a + t == t;
      var st := SplitLines(t);
      assert a + st[0] == st[0];
      assert st == [st[0]] + st[1..];
    }
  }

  /** Splitting text glued from line-feed-free pieces gives the pieces back. */
  lemma {:induction false} SplitJoin(ls: seq<string>)
    requires |ls| >= 1
    requires forall i :: 0 <= i < |ls| ==> '\n' !in ls[i]
    ensures SplitLines(JoinLines(ls)) == ls
    decreases |ls|
  {
    if |ls| == 1 {
      SplitPrefix(ls[0], "");
      assert ls[0] + "" == ls[0];
    } else {
      var j := JoinLines(ls[1..]);
      SplitJoin(ls[1..]);
      assert ls[0] + "\n" + j == ls[0] + ("\n" + j);
      SplitPrefix(ls[0], "\n" + j);
      assert ("\n" + j)[1..] == j;
      assert SplitLines("\n" + j) == [""] + ls[1..];
      assert (["" ] + ls[1..])[0] == "";
      assert ([""] + ls[1..])[1..] == ls[1..];
      assert ls[0] + "" == ls[0];
      assert ls == [ls[0]] + ls[1..];
    }
  }
}

=== FILE: oracle.dfy ===
/** The remote outcomes the program cannot see in advance: whether a route
    request came back with a usable route, and whether a submitted
    transaction was confirmed. Each is an infinite stream of booleans read
    in order, one position per request. */
module Oracle {

  /** Position k holds the outcome of the k-th request of its kind. */
  type Stream = nat -> bool

  /** The k-th request succeeded. */
  predicate Succeeds(o: Stream, k: int)
  {
    k >= 0 && o(k)
  }

  /** One of the `n` requests from position `from` on succeeded. */
  predicate AnySucceed(o: Stream, from: nat, n: nat)
    decreases n
  {
    n > 0 && (Succeeds(o, from) || AnySucceed(o, from + 1, n - 1))
  }

  /** `AnySucceed` is the existential it names: some position in
      `from` .. `from + n - 1` succeeded. */
  lemma {:induction false} AnySucceedExists(o: Stream, from: nat, n: nat)
    ensures AnySucceed(o, from, n) <==> exists k :: from <= k < from + n && Succeeds(o, k)
    decreases n
  {
    if n > 0 {
      AnySucceedExists(o, from + 1, n - 1);
      if exists k :: from <= k < from + n && Succeeds(o, k) {
        var k :| from <= k < from + n && Succeeds(o, k);
        assert k == from || (from + 1 <= k < from + 1 + (n - 1) && Succeeds(o, k));
      }
    }
  }

  /** How many of at most `n` requests from position `from` on are made
      when they stop at the first success: up to and including the first
      success, or all `n` when none succeeds (never fewer than one). */
  function UntilSuccess(o: Stream, from: nat, n: nat): nat
    decreases n
  {
    if n <= 1 || Succeeds(o, from) then 1 else 1 + UntilSuccess(o, from + 1, n - 1)
  }

  /** None of the requests at positions `from` .. `to - 1` succeeded. */
  predicate NoneSucceed(o: Stream, from: nat, to: int)
  {
    forall k :: from <= k < to ==> !Succeeds(o, k)
  }
}

=== FILE: private_keys.dfy ===
/** `loadPrivateKeys` (index.js:135-144): read PRIVATE_KEY_1, PRIVATE_KEY_2,
    ... from the environment until the first index that is not set, keeping
    only the well-formed keys. */
module PrivateKeys {

  /** The environment restricted to the key variables: `env[i]` is the value
      of PRIVATE_KEY_<i>; an index absent from the map is an unset variable. */
  type Env = map<nat, string>

  /** The loop condition `process.env[...]` is JavaScript truthiness: an unset
      variable and an empty value both end the scan. */
  predicate IsSet(env: Env, i: nat)
  {
    i in env && env[i] != ""
  }

  /** A key is kept when it starts with "0x" and is 66 characters long. */
  predicate IsWellFormedKey(pk: string)
  {
    |pk| >= 2 && pk[0] == '0' && pk[1] == 'x' && |pk| == 66
  }

  /** The variables at index `i` or later that are present at all: the scan
      from `i` visits at most these, so their number bounds it. */
  ghost function KeysFrom(env: Env, i: nat): set<nat>
  {
    set k | k in env && k >= i
  }

  lemma KeysFromShrinks(env: Env, i: nat)
    requires i in env
    ensures |KeysFrom(env, i + 1)| < |KeysFrom(env, i)|
  {
    assert KeysFrom(env, i) == KeysFrom(env, i + 1) + {i};
  }

  /** The index at which a scan started at `i` stops: the first unset one. */
  function ScanEnd(env: Env, i: nat): (e: nat)
    ensures i <= e && !IsSet(env, e)
    ensures forall k :: i <= k < e ==> IsSet(env, k)
    decreases |KeysFrom(env, i)|
  {
    if !IsSet(env, i) then i
    else
      KeysFromShrinks(env, i);
      ScanEnd(env, i + 1)
  }

  /** The keys the scan from index `i` keeps, in index order. */
  function KeysFromIndex(env: Env, i: nat): (keys: seq<string>)
    ensures forall j :: 0 <= j < |keys| ==> IsWellFormedKey(keys[j])
    decreases |KeysFrom(env, i)|
  {
    if !IsSet(env, i) then []
    else
      KeysFromShrinks(env, i);
      (if IsWellFormedKey(env[i]) then [env[i]] else []) + KeysFromIndex(env, i + 1)
  }

  /** The indices, from `i` on and before the first unset one, whose value is
      a well-formed key: the reference against which the scan is checked. */
  function KeptIndices(env: Env, i: nat): seq<nat>
    decreases |KeysFrom(env, i)|
  {
    if !IsSet(env, i) then []
    else
      KeysFromShrinks(env, i);
      (if IsWellFormedKey(env[i]) then [i] else []) + KeptIndices(env, i + 1)
  }

  /** The kept indices lie in the scanned range, hold a value, and are in
      increasing order. */
  predicate IndicesInScan(env: Env, i: nat, idx: seq<nat>)
  {
    && (forall j :: 0 <= j < |idx| ==> i <= idx[j] < ScanEnd(env, i) && idx[j] in env)
    && (forall j, k :: 0 <= j < k < |idx| ==> idx[j] < idx[k])
  }

  /** The kept indices are ordered and come from the scanned range only:
      nothing at or after the first gap is read. */
  lemma {:induction false} KeptIndicesOrdered(env: Env, i: nat)
    ensures IndicesInScan(env, i, KeptIndices(env, i))
    decreases |KeysFrom(env, i)|
  {
    if IsSet(env, i) {
      KeysFromShrinks(env, i);
      KeptIndicesOrdered(env, i + 1);
      assert ScanEnd(env, i) == ScanEnd(env, i + 1);
    }
  }

  /** The k-th kept key is the value at the k-th kept index. */
  lemma {:induction false} KeysAtKeptIndices(env: Env, i: nat)
    ensures |KeysFromIndex(env, i)| == |KeptIndices(env, i)|
    ensures forall j :: 0 <= j < |KeptIndices(env, i)| ==>
      KeptIndices(env, i)[j] in env && KeysFromIndex(env, i)[j] == env[KeptIndices(env, i)[j]]
    decreases |KeysFrom(env, i)|
  {
    if IsSet(env, i) {
      KeysFromShrinks(env, i);
      KeysAtKeptIndices(env, i + 1);
      var keys, idx := KeysFromIndex(env, i), KeptIndices(env, i);
      var keys', idx' := KeysFromIndex(env, i + 1), KeptIndices(env, i + 1);
      if IsWellFormedKey(env[i]) {
        assert keys == [env[i]] + keys' && idx == [i] + idx';
        forall j | 0 <= j < |idx|
          ensures idx[j] in env && keys[j] == env[idx[j]]
        {
          if j > 0 {
            assert idx[j] == idx'[j - 1] && keys[j] == keys'[j - 1];
          }
        }
      } else {
        assert keys == keys' && idx == idx';
      }
    }
  }

  /** Every index of the scanned range is kept exactly when its value is a
      well-formed key: a malformed value is skipped without ending the
      scan. */
  lemma {:induction false} KeptIndicesExact(env: Env, i: nat)
    ensures forall k :: i <= k < ScanEnd(env, i) ==>
      (k in KeptIndices(env, i) <==> k in env && IsWellFormedKey(env[k]))
    decreases |KeysFrom(env, i)|
  {
    if IsSet(env, i) {
      KeysFromShrinks(env, i);
      KeptIndicesExact(env, i + 1);
      KeptIndicesOrdered(env, i + 1);
      var rest := KeptIndices(env, i + 1);
      var idx := KeptIndices(env, i);
      var head := if IsWellFormedKey(env[i]) then [i] else [];
      assert idx == head + rest;
      assert ScanEnd(env, i) == ScanEnd(env, i + 1);
      forall k | i <= k < ScanEnd(env, i)
        ensures k in idx <==> k in env && IsWellFormedKey(env[k])
      {
        if k == i {
          assert i !in rest;
        } else {
          assert k in idx <==> k in rest;
        }
      }
    }
  }

  /** The keys the program starts with. */
  function LoadedKeys(env: Env): seq<string>
  {
    KeysFromIndex(env, 1)
  }

  /** The scan as the source writes it, a loop with a counter from 1. */
  method LoadPrivateKeys(env: Env) returns (keys: seq<string>)
    ensures keys == LoadedKeys(env)
    ensures forall j :: 0 <= j < |keys| ==> IsWellFormedKey(keys[j])
  {
    keys := [];
    var i: nat := 1;
    while IsSet(env, i)
      invariant 1 <= i
      invariant keys + KeysFromIndex(env, i) == LoadedKeys(env)
      decreases |KeysFrom(env, i)|
    {
      var pk := env[i];
      if IsWellFormedKey(pk) {
        keys := keys + [pk];
      }
      KeysFromShrinks(env, i);
      i := i + 1;
    }
  }
}

=== FILE: proxy_list.dfy ===
/** Loading proxy.txt into the proxy pool (index.js:69-80): split the file
    into lines, trim every line, drop the blank ones. A file that is missing
    or cannot be read gives an empty pool, which disables proxying. */
module ProxyList {
  import opened Wrappers
  import opened JsText

  /** A proxy entry as the loader keeps it: non-empty, with no whitespace at
      either end. */
  predicate IsCleanEntry(e: string)
  {
    e != [] && !IsSpace(e[0]) && !IsSpace(e[|e| - 1])
  }

  /** `.map(p => p.trim()).filter(p => p.length > 0)` over the lines. */
  function CleanLines(lines: seq<string>): (r: seq<string>)
    ensures |r| <= |lines|
    ensures forall j :: 0 <= j < |r| ==> IsCleanEntry(r[j])
  {
    if |lines| == 0 then []
    else
      var t := Trim(lines[|lines| - 1]);
      CleanLines(lines[..|lines| - 1]) + (if t != [] then [t] else [])
  }

  /** The positions of the non-blank lines, in increasing order: the
      reference against which `CleanLines` is checked. */
  function NonBlankLines(lines: seq<string>): seq<nat>
  {
    if |lines| == 0 then []
    else
      NonBlankLines(lines[..|lines| - 1])
      + (if !AllSpace(lines[|lines| - 1]) then [|lines| - 1] else [])
  }

  /** `NonBlankLines` lists exactly the non-blank lines, each once, in order. */
  lemma {:induction false} NonBlankLinesExact(lines: seq<string>)
    ensures forall j :: 0 <= j < |NonBlankLines(lines)| ==> NonBlankLines(lines)[j] < |lines|
    ensures forall j, k :: 0 <= j < k < |NonBlankLines(lines)| ==>
      NonBlankLines(lines)[j] < NonBlankLines(lines)[k]
    ensures forall i :: 0 <= i < |lines| ==> (i in NonBlankLines(lines) <==> !AllSpace(lines[i]))
    decreases |lines|
  {
    if |lines| > 0 {
      var init := lines[..|lines| - 1];
      NonBlankLinesExact(init);
      forall i | 0 <= i < |init|
        ensures AllSpace(lines[i]) == AllSpace(init[i])
      {
      }
    }
  }

  /** The loader keeps, in file order, the trimmed form of exactly the
      non-blank lines: entry j is the trim of line NonBlankLines(lines)[j]. */
  lemma {:induction false} CleanLinesSelects(lines: seq<string>)
    ensures |CleanLines(lines)| == |NonBlankLines(lines)|
    ensures forall j :: 0 <= j < |CleanLines(lines)| ==>
      NonBlankLines(lines)[j] < |lines| && CleanLines(lines)[j] == Trim(lines[NonBlankLines(lines)[j]])
    decreases |lines|
  {
    if |lines| > 0 {
      var init, last := lines[..|lines| - 1], lines[|lines| - 1];
      CleanLinesSelects(init);
      NonBlankLinesExact(init);
      var c, ci := CleanLines(lines), CleanLines(init);
      var nb, nbi := NonBlankLines(lines), NonBlankLines(init);
      var t := Trim(last);
      assert c == ci + (if t != [] then [t] else []);
      assert nb == nbi + (if !AllSpace(last) then [|lines| - 1] else []);
      assert t != [] <==> !AllSpace(last);
      forall j | 0 <= j < |c|
        ensures nb[j] < |lines| && c[j] == Trim(lines[nb[j]])
      {
        if j < |ci| {
          assert c[j] == ci[j] && nb[j] == nbi[j];
          assert lines[nbi[j]] == init[nbi[j]];
        } else {
          assert c[j] == t && nb[j] == |lines| - 1;
        }
      }
    }
  }

  /** The proxy list read from proxy.txt; `None` when the file is missing or cannot
      be read (any read error lands in the same catch). */
  function ParseProxyList(file: Option<string>): (r: seq<string>)
    ensures file.None? ==> r == []
    ensures file.Some? ==> |r| <= NewlineCount(file.value) + 1
    ensures forall j :: 0 <= j < |r| ==> IsCleanEntry(r[j])
  {
    match file
    case None => []
    case Some(text) => CleanLines(SplitLines(text))
  }

  /** The loaded pool holds, in file order, the trimmed form of exactly the
      lines of proxy.txt that are not blank. */
  lemma ParseProxyListSpec(text: string)
    ensures var lines, idx, r := SplitLines(text), NonBlankLines(SplitLines(text)), ParseProxyList(Some(text));
      && |r| == |idx|
      && (forall j :: 0 <= j < |idx| ==> idx[j] < |lines| && r[j] == Trim(lines[idx[j]]))
      && (forall j, k :: 0 <= j < k < |idx| ==> idx[j] < idx[k])
      && (forall i :: 0 <= i < |lines| ==> (i in idx <==> !AllSpace(lines[i])))
  {
    CleanLinesSelects(SplitLines(text));
    NonBlankLinesExact(SplitLines(text));
  }
}

=== FILE: proxy_pool.dfy ===
/** The proxy pool: the list read from proxy.txt and the one round-robin
    cursor that the whole run shares (index.js:69-88). */
module ProxyPool {
  import opened Wrappers

  /** The loaded proxies, which never change, and the cursor `proxyIndex`,
      which only ever grows. */
  datatype Pool = Pool(proxies: seq<string>, cursor: nat)

  /** What one call of the selector returned, and the pool after it. */
  datatype Pick = Pick(proxy: Option<string>, pool: Pool)

  /** `getNextProxy`: the proxy under the cursor, wrapping modulo the pool
      size, after which the cursor moves on by one. An empty pool yields no
      proxy and leaves the cursor alone. */
  function NextProxy(p: Pool): (r: Pick)
    ensures r.pool.proxies == p.proxies
    ensures r.proxy.None? <==> |p.proxies| == 0
    ensures r.proxy.None? ==> r.pool == p
    ensures r.proxy.Some? ==> r.proxy.value in p.proxies && r.pool.cursor == p.cursor + 1
  {
    if |p.proxies| == 0 then Pick(None, p)
    else Pick(Some(p.proxies[p.cursor % |p.proxies|]), p.(cursor := p.cursor + 1))
  }

  /** What several calls of the selector returned, in order, and the pool
      after the last of them. */
  datatype Picks = Picks(handed: seq<Option<string>>, pool: Pool)

  /** `k` successive calls of `NextProxy`. */
  function NextProxies(p: Pool, k: nat): (r: Picks)
    ensures |r.handed| == k
    ensures r.pool.proxies == p.proxies
    decreases k
  {
    if k == 0 then Picks([], p)
    else
      var first := NextProxy(p);
      var rest := NextProxies(first.pool, k - 1);
      Picks([first.proxy] + rest.handed, rest.pool)
  }

  /** The first of k >= 1 calls, followed by the other k - 1. */
  lemma NextProxiesStep(p: Pool, k: nat)
    requires k > 0
    ensures NextProxies(p, k).handed
      == [NextProxy(p).proxy] + NextProxies(NextProxy(p).pool, k - 1).handed
  {
  }

  /** With a non-empty pool of size m, k calls from cursor s hand out
      pool[(s + i) mod m] for i = 0 .. k-1 and leave the cursor at s + k. */
  lemma {:induction false} RoundRobin(p: Pool, k: nat)
    requires |p.proxies| > 0
    ensures forall i :: 0 <= i < k ==>
      NextProxies(p, k).handed[i] == Some(p.proxies[(p.cursor + i) % |p.proxies|])
    ensures NextProxies(p, k).pool.cursor == p.cursor + k
    decreases k
  {
    if k > 0 {
      var next := NextProxy(p).pool;
      RoundRobin(next, k - 1);
      forall i | 0 <= i < k
        ensures NextProxies(p, k).handed[i] == Some(p.proxies[(p.cursor + i) % |p.proxies|])
      {
        if i > 0 {
          assert NextProxies(p, k).handed[i] == NextProxies(next, k - 1).handed[i - 1];
          assert next.cursor + (i - 1) == p.cursor + i;
        }
      }
    }
  }

  /** With an empty pool every call yields no proxy and the cursor never moves. */
  lemma {:induction false} EmptyPoolNeverProxies(p: Pool, k: nat)
    requires |p.proxies| == 0
    ensures forall i :: 0 <= i < k ==> NextProxies(p, k).handed[i].None?
    ensures NextProxies(p, k).pool == p
  {
    if k > 0 {
      EmptyPoolNeverProxies(p, k - 1);
    }
  }

  /** If y = m*k + r with 0 <= r < m then y mod m = r. */
  lemma ModUnique(y: int, m: int, k: int, r: int)
    requires m > 0 && 0 <= r < m && y == m * k + r
    ensures y % m == r
  {
    var q, s := y / m, y % m;
    assert y == m * q + s;
    assert 0 <= s < m;
    assert m * k - m * q == s - r;
    assert m * (k - q) == s - r;
    if k > q {
      MulAtLeast(m, k - q);
      assert false;
    } else if k < q {
      MulAtLeast(m, q - k);
      assert false;
    }
  }

  lemma MulAtLeast(m: int, d: int)
    requires m > 0 && d >= 1
    ensures m * d >= m
  {
  }

  /** The number of calls after which a cursor at `c` reaches slot `j`. */
  lemma OffsetOf(c: nat, j: nat, m: nat) returns (i: nat)
    requires j < m
    ensures i < m && (c + i) % m == j
  {
    i := (j - c) % m;
    var q := (j - c) / m;
    assert j - c == m * q + i;
    ModUnique(c + i, m, -q, j);
  }

  /** Fairness: any m consecutive calls on a pool of size m hand out every
      proxy of the pool, whatever the cursor was. */
  lemma Fairness(p: Pool, j: nat)
    requires j < |p.proxies|
    ensures Some(p.proxies[j]) in NextProxies(p, |p.proxies|).handed
  {
    var m := |p.proxies|;
    var i := OffsetOf(p.cursor, j, m);
    RoundRobin(p, m);
    assert NextProxies(p, m).handed[i] == Some(p.proxies[(p.cursor + i) % m]);
  }
}

=== FILE: run.dfy ===
/** The main program (index.js:296-357): load the keys, ask for the number
    of swaps per wallet, then run one batch per wallet in order, each
    starting with the next proxy the shared pool hands out, and add up the
    totals. */
module Run {
  import opened Wrappers
  import opened Oracle
  import opened ProxyPool
  import opened JsText
  import opened JsParseInt
  import opened ProxyList
  import opened PrivateKeys
  import opened Submit
  import opened Batch

  /** The pause between two wallets. */
  const WalletPauseMs: nat := 5000

  /** The two ways the program stops before any wallet runs. */
  datatype Fatal = NoPrivateKeys | InvalidNumber

  /** The count check on the answer to the prompt: `parseInt` of the
      answer, rejected when it is NaN or 0 (the `!countNum` test) or below
      1. */
  function SwapCount(answer: string): (r: Option<nat>)
    ensures r.Some? <==> ParseInt(answer).Some? && ParseInt(answer).value >= 1
    ensures r.Some? ==> r.value >= 1 && r.value == ParseInt(answer).value
  {
    match ParseInt(answer)
    case None => None
    case Some(n) => if n == 0 || n < 1 then None else Some(n as nat)
  }

  /** What one wallet did: the proxy handed out for it at the start, its batch, and whether the 5000 ms pause followed it. */
  datatype WalletRun = WalletRun(proxy: Option<string>, batch: BatchRun, pauseAfter: bool)

  /** The wallet loop from wallet `i` of `n` on, with the shared pool
      `pool` and the oracle positions reached so far. Each wallet takes the
      next proxy the pool hands out, runs its batch on a connection that
      records it, and the pool (moved on by the batch's rotations) goes to the next
      wallet. */
  function WalletsFrom(o: Remote, count: nat, pool: Pool, routePos: nat, submitPos: nat,
                       i: nat, n: nat): (ws: seq<WalletRun>)
    requires i <= n
    ensures |ws| == n - i
    decreases n - i
  {
    if i == n then []
    else
      var pick := NextProxy(pool);
      var b := BatchSwap(o, Cursor(Connection(pick.pool, pick.proxy), routePos, submitPos), count);
      [WalletRun(pick.proxy, b, i < n - 1)]
        + WalletsFrom(o, count, b.st.conn.pool, b.st.routePos, b.st.submitPos, i + 1, n)
  }

  /** The first wallet of the loop from `i` and where the rest resumes. */
  lemma WalletsFromStep(o: Remote, count: nat, pool: Pool, routePos: nat, submitPos: nat,
                        i: nat, n: nat)
    requires i < n
    ensures var pick := NextProxy(pool);
      var b := BatchSwap(o, Cursor(Connection(pick.pool, pick.proxy), routePos, submitPos), count);
      WalletsFrom(o, count, pool, routePos, submitPos, i, n)
        == [WalletRun(pick.proxy, b, i < n - 1)]
           + WalletsFrom(o, count, b.st.conn.pool, b.st.routePos, b.st.submitPos, i + 1, n)
  {
  }

  /** The proxy rotations the batches of the first `j` wallets made. */
  function RotationsBefore(ws: seq<WalletRun>, j: nat): nat
    requires j <= |ws|
    decreases j
  {
    if j == 0 then 0 else BatchRotations(ws[0].batch.slots) + RotationsBefore(ws[1..], j - 1)
  }

  /** The first wallet of the loop from `i` over a non-empty list, and the
      pool the rest of the loop starts from: the pick's, moved on by the
      batch's rotations. */
  lemma WalletStep(o: Remote, count: nat, pool: Pool, routePos: nat, submitPos: nat, i: nat, n: nat)
    returns (w: WalletRun, next: Pool, rp: nat, sp: nat)
    requires i < n
    requires |pool.proxies| > 0
    ensures WalletsFrom(o, count, pool, routePos, submitPos, i, n)
         == [w] + WalletsFrom(o, count, next, rp, sp, i + 1, n)
    ensures w.proxy == Some(pool.proxies[pool.cursor % |pool.proxies|])
    ensures next.proxies == pool.proxies
    ensures next.cursor == pool.cursor + 1 + BatchRotations(w.batch.slots)
  {
    var pick := NextProxy(pool);
    var b := BatchSwap(o, Cursor(Connection(pick.pool, pick.proxy), routePos, submitPos), count);
    WalletsFromStep(o, count, pool, routePos, submitPos, i, n);
    w, next, rp, sp := WalletRun(pick.proxy, b, i < n - 1), b.st.conn.pool, b.st.routePos, b.st.submitPos;
  }

  /** Wallet j of wallets with one more in front, and the rotations before
      it. */
  lemma RotationsBeforeCons(w: WalletRun, rest: seq<WalletRun>, j: nat)
    requires 0 < j <= |rest|
    ensures ([w] + rest)[j] == rest[j - 1]
    ensures RotationsBefore([w] + rest, j) == BatchRotations(w.batch.slots) + RotationsBefore(rest, j - 1)
  {
    assert ([w] + rest)[0] == w && ([w] + rest)[1..] == rest;
  }

  /** The one cursor is shared by the whole run: with a non-empty proxy
      list, wallet j of the loop is handed the proxy j places after the
      cursor, moved on by one more place for every rotation the batches of
      the wallets before it made, wrapping round the list. */
  lemma {:induction false} WalletProxyOf(o: Remote, count: nat, pool: Pool, routePos: nat, submitPos: nat,
                                         i: nat, n: nat, j: nat)
    requires |pool.proxies| > 0
    requires i <= n && j < n - i
    ensures WalletsFrom(o, count, pool, routePos, submitPos, i, n)[j].proxy
         == Some(pool.proxies[(pool.cursor + j + RotationsBefore(WalletsFrom(o, count, pool, routePos, submitPos, i, n), j))
                              % |pool.proxies|])
    decreases j
  {
    var w, next, rp, sp := WalletStep(o, count, pool, routePos, submitPos, i, n);
    if j > 0 {
      var rest := WalletsFrom(o, count, next, rp, sp, i + 1, n);
      WalletProxyOf(o, count, next, rp, sp, i + 1, n, j - 1);
      RotationsBeforeCons(w, rest, j);
    }
  }

  /** `totalSuccessfulSwaps`: the sum of what the batches returned. */
  function SuccessTotal(ws: seq<WalletRun>): nat
  {
    if |ws| == 0 then 0 else ws[0].batch.successes + SuccessTotal(ws[1..])
  }

  /** `totalAttemptedSwaps`: `count` added once per wallet. */
  function AttemptTotal(ws: seq<WalletRun>, count: nat): nat
  {
    if |ws| == 0 then 0 else count + AttemptTotal(ws[1..], count)
  }

  /** The number of 5000 ms pauses between wallets. */
  function PauseTotal(ws: seq<WalletRun>): nat
  {
    if |ws| == 0 then 0 else (if ws[0].pauseAfter then 1 else 0) + PauseTotal(ws[1..])
  }

  /** The summary the program prints: one entry per wallet, the two totals
      and the number of pauses between wallets. */
  datatype Report = Report(wallets: seq<WalletRun>, totalSuccessful: nat, totalAttempted: nat,
                           walletPauses: nat)

  /** The whole program on environment `env`, the contents of proxy.txt
      (`None`: missing or unreadable) and the answer typed at the prompt. The key check
      comes before the prompt, so a missing key wins over a bad count, and
      either stops the program before any wallet runs. */
  function RunBot(o: Remote, env: Env, proxyFile: Option<string>, answer: string): (r: Result<Report, Fatal>)
    ensures r == Err(NoPrivateKeys) <==> LoadedKeys(env) == []
    ensures r == Err(InvalidNumber) <==> LoadedKeys(env) != [] && SwapCount(answer).None?
    ensures r.Ok? ==> SwapCount(answer).Some? && |r.value.wallets| == |LoadedKeys(env)|
  {
    var keys := LoadedKeys(env);
    if keys == [] then Err(NoPrivateKeys)
    else match SwapCount(answer)
      case None => Err(InvalidNumber)
      case Some(count) =>
        var ws := WalletsFrom(o, count, Pool(ParseProxyList(proxyFile), 0), 0, 0, 0, |keys|);
        Ok(Report(ws, SuccessTotal(ws), AttemptTotal(ws, count), PauseTotal(ws)))
  }

  /** Every wallet ran `count` slots and so counted at most `count`
      successes. */
  predicate FullBatches(ws: seq<WalletRun>, count: nat)
  {
    forall j :: 0 <= j < |ws| ==> |ws[j].batch.slots| == count && ws[j].batch.successes <= count
  }

  /** Only the last wallet is not followed by a pause. */
  predicate PausesBetween(ws: seq<WalletRun>)
  {
    forall j :: 0 <= j < |ws| ==> (ws[j].pauseAfter <==> j < |ws| - 1)
  }

  /** Every wallet runs its full batch of `count` slots, and a pause
      follows every wallet but the last. */
  lemma {:induction false} WalletsShape(o: Remote, count: nat, pool: Pool, routePos: nat, submitPos: nat,
                                        i: nat, n: nat)
    requires i <= n
    ensures FullBatches(WalletsFrom(o, count, pool, routePos, submitPos, i, n), count)
    ensures PausesBetween(WalletsFrom(o, count, pool, routePos, submitPos, i, n))
    decreases n - i
  {
    if i < n {
      var pick := NextProxy(pool);
      var b := BatchSwap(o, Cursor(Connection(pick.pool, pick.proxy), routePos, submitPos), count);
      WalletsFromStep(o, count, pool, routePos, submitPos, i, n);
      WalletsShape(o, count, b.st.conn.pool, b.st.routePos, b.st.submitPos, i + 1, n);
      var ws := WalletsFrom(o, count, pool, routePos, submitPos, i, n);
      var rest := WalletsFrom(o, count, b.st.conn.pool, b.st.routePos, b.st.submitPos, i + 1, n);
      forall j | 0 <= j < |ws|
        ensures |ws[j].batch.slots| == count && ws[j].batch.successes <= count
        ensures ws[j].pauseAfter <==> j < |ws| - 1
      {
        if j > 0 {
          assert ws[j] == rest[j - 1];
        }
      }
    }
  }

  /** Adding `count` once per wallet gives the number of wallets times
      `count`. */
  lemma {:induction false} AttemptTotalIsProduct(ws: seq<WalletRun>, count: nat)
    ensures AttemptTotal(ws, count) == |ws| * count
    decreases |ws|
  {
    if |ws| > 0 {
      AttemptTotalIsProduct(ws[1..], count);
      assert |ws| * count == count + (|ws| - 1) * count;
    }
  }

  /** With full batches no more swaps succeed than were attempted. */
  lemma {:induction false} SuccessTotalBound(ws: seq<WalletRun>, count: nat)
    requires FullBatches(ws, count)
    ensures SuccessTotal(ws) <= AttemptTotal(ws, count)
    decreases |ws|
  {
    if |ws| > 0 {
      assert ws[0].batch.successes <= count;
      assert FullBatches(ws[1..], count) by {
        forall j | 0 <= j < |ws[1..]|
          ensures |ws[1..][j].batch.slots| == count && ws[1..][j].batch.successes <= count
        {
          assert ws[1..][j] == ws[j + 1];
        }
      }
      SuccessTotalBound(ws[1..], count);
    }
  }

  /** With a pause after every wallet but the last there are one fewer
      pauses than wallets. */
  lemma {:induction false} PauseTotalCount(ws: seq<WalletRun>)
    requires |ws| > 0 && PausesBetween(ws)
    ensures PauseTotal(ws) == |ws| - 1
    decreases |ws|
  {
    if |ws| > 1 {
      assert ws[0].pauseAfter;
      assert PausesBetween(ws[1..]) by {
        forall j | 0 <= j < |ws[1..]|
          ensures ws[1..][j].pauseAfter <==> j < |ws[1..]| - 1
        {
          assert ws[1..][j] == ws[j + 1];
        }
      }
      PauseTotalCount(ws[1..]);
    } else {
      assert !ws[0].pauseAfter;
    }
  }

  /** The summary of a completed run: one wallet per key, `count` attempted
      swaps per wallet, no more successes than attempts, and a pause
      between consecutive wallets. */
  lemma RunTotals(o: Remote, env: Env, proxyFile: Option<string>, answer: string)
    requires LoadedKeys(env) != [] && SwapCount(answer).Some?
    ensures RunBot(o, env, proxyFile, answer).value.totalAttempted
         == |LoadedKeys(env)| * SwapCount(answer).value
    ensures RunBot(o, env, proxyFile, answer).value.totalSuccessful
         <= RunBot(o, env, proxyFile, answer).value.totalAttempted
    ensures RunBot(o, env, proxyFile, answer).value.walletPauses == |LoadedKeys(env)| - 1
  {
    var keys, count := LoadedKeys(env), SwapCount(answer).value;
    var pool := Pool(ParseProxyList(proxyFile), 0);
    var ws := WalletsFrom(o, count, pool, 0, 0, 0, |keys|);
    WalletsShape(o, count, pool, 0, 0, 0, |keys|);
    AttemptTotalIsProduct(ws, count);
    SuccessTotalBound(ws, count);
    PauseTotalCount(ws);
  }

  /** Typing a decimal number of at least 1, possibly surrounded by spaces
      or followed by text that does not start with a digit, is accepted as
      that count. */
  lemma SwapCountDecimal(ws: string, n: nat, tail: string)
    requires AllSpace(ws) && n >= 1
    requires tail == [] || !IsDigit(tail[0], 10)
    ensures SwapCount(ws + DecimalString(n) + tail) == Some(n)
  {
    var s := DecimalString(n) + tail;
    assert ws + DecimalString(n) + tail == ws + s;
    ParseIntSkipsSpace(ws, s);
    ParseIntDecimal(n, tail);
    assert ParseInt(ws + s) == ParseInt(s) == Some(n);
  }

  /** Zero is rejected. */
  lemma SwapCountZero()
    ensures SwapCount("0") == None
  {
    assert "0" == DecimalString(0) + [];
    ParseIntDecimal(0, []);
  }

  /** Negative numbers are rejected. */
  lemma SwapCountNegative(n: nat)
    ensures SwapCount("-" + DecimalString(n)) == None
  {
    ParseIntNegative(n);
  }

  /** A blank answer is rejected. */
  lemma SwapCountBlank(s: string)
    requires AllSpace(s)
    ensures SwapCount(s) == None
  {
    assert s + [] == s;
    LeadingSpaceOfPrefix(s, []);
  }

  /** The proxies handed out for the wallets at their start, in order. */
  function Proxies(ws: seq<WalletRun>): (ps: seq<Option<string>>)
    ensures |ps| == |ws|
  {
    if |ws| == 0 then [] else [ws[0].proxy] + Proxies(ws[1..])
  }

  /** Each wallet starts on the proxy listed for it. */
  lemma {:induction false} ProxiesIndex(ws: seq<WalletRun>, j: nat)
    requires j < |ws|
    ensures Proxies(ws)[j] == ws[j].proxy
    decreases j
  {
    if j > 0 {
      ProxiesIndex(ws[1..], j - 1);
    }
  }

  /** Every wallet's batch succeeded in every slot. */
  predicate AllFull(ws: seq<WalletRun>, count: nat)
  {
    forall j :: 0 <= j < |ws| ==> ws[j].batch.successes == count
  }

  /** When every batch succeeds in full, the two totals agree. */
  lemma {:induction false} AllFullTotals(ws: seq<WalletRun>, count: nat)
    requires AllFull(ws, count)
    ensures SuccessTotal(ws) == AttemptTotal(ws, count)
    decreases |ws|
  {
    if |ws| > 0 {
      assert ws[0].batch.successes == count;
      assert AllFull(ws[1..], count) by {
        forall j | 0 <= j < |ws[1..]|
          ensures ws[1..][j].batch.successes == count
        {
          assert ws[1..][j] == ws[j + 1];
        }
      }
      AllFullTotals(ws[1..], count);
    }
  }

  /** When every route fetch and every submission succeeds, every slot of
      every wallet succeeds. */
  lemma {:induction false} AllSucceedFull(o: Remote, count: nat, pool: Pool, routePos: nat,
                                          submitPos: nat, i: nat, n: nat)
    requires i <= n
    requires forall k :: Succeeds(o.route, k)
    requires forall k :: Succeeds(o.confirmed, k)
    ensures AllFull(WalletsFrom(o, count, pool, routePos, submitPos, i, n), count)
    decreases n - i
  {
    if i < n {
      var pick := NextProxy(pool);
      var st := Cursor(Connection(pick.pool, pick.proxy), routePos, submitPos);
      var b := BatchSwap(o, st, count);
      AllSucceed(o, st, count, 0);
      WalletsFromStep(o, count, pool, routePos, submitPos, i, n);
      AllSucceedFull(o, count, b.st.conn.pool, b.st.routePos, b.st.submitPos, i + 1, n);
      var ws := WalletsFrom(o, count, pool, routePos, submitPos, i, n);
      var rest := WalletsFrom(o, count, b.st.conn.pool, b.st.routePos, b.st.submitPos, i + 1, n);
      forall j | 0 <= j < |ws|
        ensures ws[j].batch.successes == count
      {
        if j > 0 {
          assert ws[j] == rest[j - 1];
        }
      }
    }
  }

  /** Each wallet was handed the next proxy of `pool` and gave the pool back
      as that pick left it: no batch rotated. */
  predicate HandedInTurn(ws: seq<WalletRun>, pool: Pool)
    decreases |ws|
  {
    |ws| == 0 || (ws[0].proxy == NextProxy(pool).proxy && HandedInTurn(ws[1..], NextProxy(pool).pool))
  }

  /** Wallets handed their proxies in turn received exactly what
      `NextProxies` hands out. */
  lemma {:induction false} InTurnProxies(ws: seq<WalletRun>, pool: Pool)
    requires HandedInTurn(ws, pool)
    ensures Proxies(ws) == NextProxies(pool, |ws|).handed
    decreases |ws|
  {
    if |ws| > 0 {
      InTurnProxies(ws[1..], NextProxy(pool).pool);
      NextProxiesStep(pool, |ws|);
    }
  }

  /** When every remote call succeeds, the first wallet's batch leaves the
      pool as its pick did, so the next wallet starts from there, at the
      oracle positions `rp` and `sp`. */
  lemma AllSucceedStep(o: Remote, count: nat, pool: Pool, routePos: nat, submitPos: nat,
                       i: nat, n: nat) returns (rp: nat, sp: nat)
    requires i < n
    requires forall k :: Succeeds(o.route, k)
    requires forall k :: Succeeds(o.confirmed, k)
    ensures WalletsFrom(o, count, pool, routePos, submitPos, i, n)[0].proxy == NextProxy(pool).proxy
    ensures WalletsFrom(o, count, pool, routePos, submitPos, i, n)[1..]
      == WalletsFrom(o, count, NextProxy(pool).pool, rp, sp, i + 1, n)
  {
    var pick := NextProxy(pool);
    var st := Cursor(Connection(pick.pool, pick.proxy), routePos, submitPos);
    var b := BatchSwap(o, st, count);
    AllSucceed(o, st, count, 0);
    WalletsFromStep(o, count, pool, routePos, submitPos, i, n);
    assert b.st.conn.pool == pick.pool;
    rp, sp := b.st.routePos, b.st.submitPos;
  }

  /** When every route fetch and every submission succeeds nothing
      rotates, so each wallet is handed the next proxy in turn. */
  lemma {:induction false} AllSucceedInTurn(o: Remote, count: nat, pool: Pool, routePos: nat,
                                            submitPos: nat, i: nat, n: nat)
    requires i <= n
    requires forall k :: Succeeds(o.route, k)
    requires forall k :: Succeeds(o.confirmed, k)
    ensures HandedInTurn(WalletsFrom(o, count, pool, routePos, submitPos, i, n), pool)
    decreases n - i
  {
    if i < n {
      var rp, sp := AllSucceedStep(o, count, pool, routePos, submitPos, i, n);
      AllSucceedInTurn(o, count, NextProxy(pool).pool, rp, sp, i + 1, n);
    }
  }

  /** When every route fetch and every submission succeeds the wallets take
      the pool's proxies one after the other from the cursor: exactly what
      `NextProxies` hands out. */
  lemma AllSucceedProxies(o: Remote, count: nat, pool: Pool, routePos: nat,
                          submitPos: nat, i: nat, n: nat)
    requires i <= n
    requires forall k :: Succeeds(o.route, k)
    requires forall k :: Succeeds(o.confirmed, k)
    ensures Proxies(WalletsFrom(o, count, pool, routePos, submitPos, i, n)) == NextProxies(pool, n - i).handed
  {
    AllSucceedInTurn(o, count, pool, routePos, submitPos, i, n);
    InTurnProxies(WalletsFrom(o, count, pool, routePos, submitPos, i, n), pool);
  }

  /** With every remote call succeeding, the j-th wallet of the loop is
      handed the proxy j places after the cursor, wrapping round the pool. */
  lemma AllSucceedProxyOf(o: Remote, count: nat, pool: Pool, routePos: nat, submitPos: nat, n: nat)
    requires forall k :: Succeeds(o.route, k)
    requires forall k :: Succeeds(o.confirmed, k)
    requires |pool.proxies| > 0
    ensures forall j :: 0 <= j < n ==>
      WalletsFrom(o, count, pool, routePos, submitPos, 0, n)[j].proxy
        == Some(pool.proxies[(pool.cursor + j) % |pool.proxies|])
  {
    var ws := WalletsFrom(o, count, pool, routePos, submitPos, 0, n);
    AllSucceedProxies(o, count, pool, routePos, submitPos, 0, n);
    RoundRobin(pool, n);
    forall j | 0 <= j < n
      ensures ws[j].proxy == Some(pool.proxies[(pool.cursor + j) % |pool.proxies|])
    {
      ProxiesIndex(ws, j);
    }
  }

  /** A completed run is the wallet loop over the loaded keys, from the
      start of the pool and of both oracles, with its three totals. */
  lemma RunBotOk(o: Remote, env: Env, proxyFile: Option<string>, answer: string)
    requires LoadedKeys(env) != [] && SwapCount(answer).Some?
    ensures SwapCount(answer).Some?
    ensures var ws := WalletsFrom(o, SwapCount(answer).value, Pool(ParseProxyList(proxyFile), 0),
                                  0, 0, 0, |LoadedKeys(env)|);
      RunBot(o, env, proxyFile, answer).value
        == Report(ws, SuccessTotal(ws), AttemptTotal(ws, SwapCount(answer).value), PauseTotal(ws))
  {
  }

  /** With every remote call succeeding the program reports a 100% success
      rate. */
  lemma AllSucceedTotals(o: Remote, env: Env, proxyFile: Option<string>, answer: string)
    requires forall k :: Succeeds(o.route, k)
    requires forall k :: Succeeds(o.confirmed, k)
    requires LoadedKeys(env) != [] && SwapCount(answer).Some?
    ensures RunBot(o, env, proxyFile, answer).value.totalSuccessful
         == RunBot(o, env, proxyFile, answer).value.totalAttempted
  {
    RunBotOk(o, env, proxyFile, answer);
    var count, pool := SwapCount(answer).value, Pool(ParseProxyList(proxyFile), 0);
    var ws := WalletsFrom(o, count, pool, 0, 0, 0, |LoadedKeys(env)|);
    AllSucceedFull(o, count, pool, 0, 0, 0, |LoadedKeys(env)|);
    AllFullTotals(ws, count);
  }

  /** From a fresh pool, with every remote call succeeding, wallet j is
      handed proxy j mod m. */
  lemma AllSucceedFromStart(o: Remote, count: nat, proxies: seq<string>, n: nat)
    requires forall k :: Succeeds(o.route, k)
    requires forall k :: Succeeds(o.confirmed, k)
    requires |proxies| > 0
    ensures forall j :: 0 <= j < n ==>
      WalletsFrom(o, count, Pool(proxies, 0), 0, 0, 0, n)[j].proxy == Some(proxies[j % |proxies|])
  {
    var pool := Pool(proxies, 0);
    AllSucceedProxyOf(o, count, pool, 0, 0, n);
    forall j | 0 <= j < n
      ensures (pool.cursor + j) % |pool.proxies| == j % |proxies|
    {
    }
  }

  /** With every remote call succeeding and a non-empty proxy list, wallet
      j is handed proxy j mod m of the list. */
  lemma AllSucceedWalletProxies(o: Remote, env: Env, proxyFile: Option<string>, answer: string)
    requires forall k :: Succeeds(o.route, k)
    requires forall k :: Succeeds(o.confirmed, k)
    requires LoadedKeys(env) != [] && SwapCount(answer).Some?
    requires |ParseProxyList(proxyFile)| > 0
    ensures forall j :: 0 <= j < |RunBot(o, env, proxyFile, answer).value.wallets| ==>
      RunBot(o, env, proxyFile, answer).value.wallets[j].proxy
        == Some(ParseProxyList(proxyFile)[j % |ParseProxyList(proxyFile)|])
  {
    RunBotOk(o, env, proxyFile, answer);
    AllSucceedFromStart(o, SwapCount(answer).value, ParseProxyList(proxyFile), |LoadedKeys(env)|);
  }

  /** With every remote call succeeding and a non-empty proxy list, the
      program reports a 100% success rate and wallet j is handed proxy
      j mod m of the list. */
  lemma AllSucceedRun(o: Remote, env: Env, proxyFile: Option<string>, answer: string)
    requires forall k :: Succeeds(o.route, k)
    requires forall k :: Succeeds(o.confirmed, k)
    requires LoadedKeys(env) != [] && SwapCount(answer).Some?
    requires |ParseProxyList(proxyFile)| > 0
    ensures RunBot(o, env, proxyFile, answer).value.totalSuccessful
         == RunBot(o, env, proxyFile, answer).value.totalAttempted
    ensures forall j :: 0 <= j < |RunBot(o, env, proxyFile, answer).value.wallets| ==>
      RunBot(o, env, proxyFile, answer).value.wallets[j].proxy
        == Some(ParseProxyList(proxyFile)[j % |ParseProxyList(proxyFile)|])
  {
    AllSucceedTotals(o, env, proxyFile, answer);
    AllSucceedWalletProxies(o, env, proxyFile, answer);
  }
}

=== FILE: submit.dfy ===
/** The failure policy of `executeSwap` (index.js:200-238). Each attempt
    sends the transaction and waits for its receipt; the remote outcome of
    the k-th submission of the run is position k of the oracle `confirmed`.
    On a failure, with one shared counter `retryCount`:
      - a non-empty proxy pool and retryCount < 5: take the next proxy,
        give the wallet a provider through it, pause 2000 ms, retry with
        retryCount + 1;
      - otherwise retryCount < 10: pause 2000 ms, retry with retryCount + 1;
      - otherwise the error propagates to the caller. */
module Submit {
  import opened Wrappers
  import opened Oracle
  import opened ProxyPool

  /** A failure at a retry count below this rotates the proxy, given a pool. */
  const ProxyRetryLimit: nat := 5

  /** A failure at a retry count below this is retried at all. */
  const RetryLimit: nat := 10

  /** The pause before every retry, on either track. */
  const RetryPauseMs: nat := 2000

  /** How one caught failure was retried: after rotating to the next proxy,
      or plainly on the same connection. */
  datatype Retry = Rotate | Plain

  /** What one call of `executeSwap` did: `ok` means a receipt came back,
      otherwise the last error propagated; `attempts` submissions were made
      (oracle positions consumed); `retries` lists, in order, the failures
      that were retried, each followed by one `RetryPauseMs` pause. */
  datatype SubmitRun = SubmitRun(ok: bool, attempts: nat, retries: seq<Retry>)

  /** The number of rotations among `rs`. */
  function Rotations(rs: seq<Retry>): nat
  {
    if |rs| == 0 then 0 else (if rs[0].Rotate? then 1 else 0) + Rotations(rs[1..])
  }

  /** The most submissions a call starting at `retryCount` can make. */
  function Budget(retryCount: nat): nat
  {
    if retryCount <= RetryLimit then RetryLimit + 1 - retryCount else 1
  }

  /** How many of the failures from `retryCount` on may still rotate. */
  function ProxyBudget(retryCount: nat): nat
  {
    if retryCount < ProxyRetryLimit then ProxyRetryLimit - retryCount else 0
  }

  /** The i-th retry is a rotation exactly when there is a pool and the
      retry count at that failure, retryCount + i, is below 5. */
  predicate TracksOrdered(rs: seq<Retry>, pooled: bool, retryCount: nat)
  {
    forall i :: 0 <= i < |rs| ==> (rs[i].Rotate? <==> pooled && retryCount + i < ProxyRetryLimit)
  }

  /** The catch branch of `executeSwap` that retries: the proxy track when
      there is a pool and retryCount < 5, the plain track otherwise. */
  function RetryKind(pooled: bool, retryCount: nat): (k: Retry)
    ensures k.Rotate? <==> pooled && retryCount < ProxyRetryLimit
  {
    if pooled && retryCount < ProxyRetryLimit then Rotate else Plain
  }

  /** `executeSwap(wallet, route, ..., retryCount)` against the oracle,
      starting at oracle position `pos`, for a proxy pool that is non-empty
      exactly when `pooled`. Submissions stop at the first confirmed one or
      when the budget is spent, the error propagates exactly when the last
      permitted submission fails, and every rotation comes before every
      plain retry. A retry count below 5 is below 10 too, so both tracks
      are reached only below the overall limit, as the
      `retryCount < RetryLimit` test here checks. */
  function ExecuteSwap(pooled: bool, confirmed: Stream, pos: nat, retryCount: nat): (r: SubmitRun)
    ensures r.attempts == |r.retries| + 1
    ensures r.attempts <= Budget(retryCount)
    ensures NoneSucceed(confirmed, pos, pos + r.attempts - 1)
    ensures r.ok == Succeeds(confirmed, pos + r.attempts - 1)
    ensures !r.ok ==> r.attempts == Budget(retryCount)
    ensures TracksOrdered(r.retries, pooled, retryCount)
    decreases if retryCount <= RetryLimit then RetryLimit - retryCount else 0
  {
    if Succeeds(confirmed, pos) then SubmitRun(true, 1, [])
    else if retryCount < RetryLimit then
      var rest := ExecuteSwap(pooled, confirmed, pos + 1, retryCount + 1);
      var r := SubmitRun(rest.ok, rest.attempts + 1, [RetryKind(pooled, retryCount)] + rest.retries);
      assert forall i :: 1 <= i < |r.retries| ==> r.retries[i] == rest.retries[i - 1];
      r
    else SubmitRun(false, 1, [])
  }

  /** When rotations are exactly the retries whose index is below the proxy
      allowance, there are min(|rs|, allowance) of them, and none without a
      pool. */
  lemma {:induction false} RotationCount(rs: seq<Retry>, pooled: bool, retryCount: nat)
    requires TracksOrdered(rs, pooled, retryCount)
    ensures Rotations(rs) == if !pooled then 0
      else if |rs| < ProxyBudget(retryCount) then |rs| else ProxyBudget(retryCount)
    decreases |rs|
  {
    if |rs| > 0 {
      forall i | 0 <= i < |rs[1..]|
        ensures rs[1..][i].Rotate? <==> pooled && retryCount + 1 + i < ProxyRetryLimit
      {
        assert rs[1..][i] == rs[i + 1];
      }
      RotationCount(rs[1..], pooled, retryCount + 1);
      assert rs[0].Rotate? <==> pooled && retryCount < ProxyRetryLimit;
    }
  }

  /** From any retryCount up to 10 the swap is confirmed exactly when one
      of the submissions the budget allows is, and the error propagates
      exactly when the whole budget was used and the last submission failed. */
  lemma OutcomeFrom(pooled: bool, confirmed: Stream, pos: nat, retryCount: nat)
    requires retryCount <= RetryLimit
    ensures ExecuteSwap(pooled, confirmed, pos, retryCount).ok <==>
      exists k :: pos <= k < pos + Budget(retryCount) && Succeeds(confirmed, k)
    ensures !ExecuteSwap(pooled, confirmed, pos, retryCount).ok <==>
      ExecuteSwap(pooled, confirmed, pos, retryCount).attempts == Budget(retryCount)
      && !Succeeds(confirmed, pos + Budget(retryCount) - 1)
  {
    var r := ExecuteSwap(pooled, confirmed, pos, retryCount);
    var b := Budget(retryCount);
    var last := pos + r.attempts - 1;
    if r.ok {
      assert pos <= last < pos + b && Succeeds(confirmed, last);
    } else {
      assert r.attempts == b && !Succeeds(confirmed, last);
      forall k | pos <= k < pos + b
        ensures !Succeeds(confirmed, k)
      {
        if k < last {
          assert NoneSucceed(confirmed, pos, last);
        }
      }
    }
  }

  /** The number of submissions is read off the oracle alone: from
      `retryCount` on they stop at the first confirmed one, or when the
      budget is spent. */
  lemma {:induction false} ExecuteSwapTries(pooled: bool, confirmed: Stream, pos: nat, retryCount: nat)
    ensures ExecuteSwap(pooled, confirmed, pos, retryCount).attempts
         == UntilSuccess(confirmed, pos, Budget(retryCount))
    decreases if retryCount <= RetryLimit then RetryLimit - retryCount else 0
  {
    if !Succeeds(confirmed, pos) && retryCount < RetryLimit {
      ExecuteSwapTries(pooled, confirmed, pos + 1, retryCount + 1);
    }
  }

  /** From a fresh call (retryCount 0) the swap is confirmed exactly when one
      of the next 11 submissions is. */
  lemma SubmitOutcome(pooled: bool, confirmed: Stream, pos: nat)
    ensures ExecuteSwap(pooled, confirmed, pos, 0).ok <==>
      exists k :: pos <= k < pos + RetryLimit + 1 && Succeeds(confirmed, k)
  {
    OutcomeFrom(pooled, confirmed, pos, 0);
  }

  /** A fresh call read off the oracle alone: it makes submissions up to
      the first confirmed one, 11 at most, and it is confirmed exactly when
      one of those 11 is. */
  lemma SubmitAnswer(pooled: bool, confirmed: Stream, pos: nat)
    ensures ExecuteSwap(pooled, confirmed, pos, 0).attempts == UntilSuccess(confirmed, pos, RetryLimit + 1)
    ensures ExecuteSwap(pooled, confirmed, pos, 0).ok == AnySucceed(confirmed, pos, RetryLimit + 1)
  {
    ExecuteSwapTries(pooled, confirmed, pos, 0);
    SubmitOutcome(pooled, confirmed, pos);
    AnySucceedExists(confirmed, pos, RetryLimit + 1);
  }

  /** The error leaves `executeSwap` exactly when the submission made at
      retryCount 10, the 11th, fails; every earlier failure is retried. */
  lemma ErrorPropagates(pooled: bool, confirmed: Stream, pos: nat)
    ensures !ExecuteSwap(pooled, confirmed, pos, 0).ok <==>
      ExecuteSwap(pooled, confirmed, pos, 0).attempts == RetryLimit + 1
      && !Succeeds(confirmed, pos + RetryLimit)
  {
    OutcomeFrom(pooled, confirmed, pos, 0);
  }

  /** A fresh call makes at most 11 submissions, and at most 5 of its
      retries rotate the proxy: 5 when a pool is loaded and at least 5
      failures were retried. */
  lemma SubmitBounds(pooled: bool, confirmed: Stream, pos: nat)
    ensures ExecuteSwap(pooled, confirmed, pos, 0).attempts <= RetryLimit + 1
    ensures Rotations(ExecuteSwap(pooled, confirmed, pos, 0).retries) <= ProxyRetryLimit
    ensures pooled && ExecuteSwap(pooled, confirmed, pos, 0).attempts > ProxyRetryLimit ==>
      Rotations(ExecuteSwap(pooled, confirmed, pos, 0).retries) == ProxyRetryLimit
  {
    RotationCount(ExecuteSwap(pooled, confirmed, pos, 0).retries, pooled, 0);
  }

  /** The connection a wallet submits through: the shared proxy pool and the
      proxy last handed out for it (`None`: none was). */
  datatype Connection = Connection(pool: Pool, proxy: Option<string>)

  /** `n` proxy rotations, each taking the next proxy from the shared pool
      and recording it as the one handed out for the wallet
      (index.js:223-225). */
  function RotateProxy(c: Connection, n: nat): (r: Connection)
    ensures r.pool.proxies == c.pool.proxies
    decreases n
  {
    if n == 0 then c
    else
      var pick := NextProxy(c.pool);
      RotateProxy(Connection(pick.pool, pick.proxy), n - 1)
  }

  /** After n >= 1 rotations over a non-empty pool the cursor has moved by n
      and the proxy last handed out is pool[(cursor + n - 1) mod m]; with no
      rotation nothing changes. */
  lemma {:induction false} RotateRoundRobin(c: Connection, n: nat)
    requires |c.pool.proxies| > 0
    ensures RotateProxy(c, n).pool.cursor == c.pool.cursor + n
    ensures n == 0 ==> RotateProxy(c, n) == c
    ensures n > 0 ==>
      RotateProxy(c, n).proxy == Some(c.pool.proxies[(c.pool.cursor + n - 1) % |c.pool.proxies|])
    decreases n
  {
    if n > 0 {
      var pick := NextProxy(c.pool);
      RotateRoundRobin(Connection(pick.pool, pick.proxy), n - 1);
    }
  }

  /** A call of `executeSwap` on a connection: the run, and the connection
      afterwards. */
  datatype Sent = Sent(run: SubmitRun, conn: Connection)

  /** One call of `executeSwap` from retryCount 0 on the wallet's
      connection: the run, and the connection afterwards. Every rotation
      advances the shared cursor and records the proxy handed out; the
      oracle's answers do not depend on the proxy, so applying the rotations
      after the run gives the same connection as interleaving them. */
  function SubmitSwap(c: Connection, confirmed: Stream, pos: nat): (r: Sent)
    ensures r.run.attempts <= RetryLimit + 1
    ensures r.conn.pool.proxies == c.pool.proxies
    ensures |c.pool.proxies| == 0 ==> r.conn == c
    ensures |c.pool.proxies| > 0 ==>
      r.conn.pool.cursor == c.pool.cursor
        + (if r.run.attempts - 1 < ProxyRetryLimit then r.run.attempts - 1 else ProxyRetryLimit)
    ensures |c.pool.proxies| > 0 ==> r.conn.pool.cursor == c.pool.cursor + Rotations(r.run.retries)
    ensures r.run == ExecuteSwap(|c.pool.proxies| > 0, confirmed, pos, 0)
  {
    var run := ExecuteSwap(|c.pool.proxies| > 0, confirmed, pos, 0);
    RotationCount(run.retries, |c.pool.proxies| > 0, 0);
    if |c.pool.proxies| == 0 then Sent(run, c)
    else
      RotateRoundRobin(c, Rotations(run.retries));
      Sent(run, RotateProxy(c, Rotations(run.retries)))
  }

  /** Three failed submissions, then a confirmed one, with proxies to hand:
      each of the three failures rotates to the next proxy. */
  lemma ThreeFailuresThenSuccess(c: Connection, confirmed: Stream)
    requires |c.pool.proxies| > 0
    requires !Succeeds(confirmed, 0) && !Succeeds(confirmed, 1) && !Succeeds(confirmed, 2)
    requires Succeeds(confirmed, 3)
    ensures SubmitSwap(c, confirmed, 0).run == SubmitRun(true, 4, [Rotate, Rotate, Rotate])
    ensures SubmitSwap(c, confirmed, 0).conn.pool.cursor == c.pool.cursor + 3
  {
    var r := SubmitSwap(c, confirmed, 0);
    RotationCount(r.run.retries, true, 0);
    RotateRoundRobin(c, 3);
  }

  /** Every submission fails: the whole budget of 11 is spent, the error
      propagates, and exactly the first 5 retries rotate when a pool is
      loaded. */
  lemma AllFail(pooled: bool, confirmed: Stream, pos: nat)
    requires forall k :: !Succeeds(confirmed, k)
    ensures !ExecuteSwap(pooled, confirmed, pos, 0).ok
    ensures ExecuteSwap(pooled, confirmed, pos, 0).attempts == RetryLimit + 1
    ensures forall i :: 0 <= i < |ExecuteSwap(pooled, confirmed, pos, 0).retries| ==>
      (ExecuteSwap(pooled, confirmed, pos, 0).retries[i].Rotate? <==> pooled && i < ProxyRetryLimit)
  {
    var r := ExecuteSwap(pooled, confirmed, pos, 0);
    assert !Succeeds(confirmed, pos + r.attempts - 1);
  }

  /** Every submission fails and a pool is loaded: 11 submissions, 5
      rotations followed by 5 plain retries, then the error propagates. */
  lemma AllFailWithPool(c: Connection, confirmed: Stream)
    requires |c.pool.proxies| > 0
    requires forall k :: !Succeeds(confirmed, k)
    ensures SubmitSwap(c, confirmed, 0).run ==
      SubmitRun(false, 11, [Rotate, Rotate, Rotate, Rotate, Rotate, Plain, Plain, Plain, Plain, Plain])
    ensures SubmitSwap(c, confirmed, 0).conn.pool.cursor == c.pool.cursor + 5
  {
    AllFailPooledRun(confirmed);
  }

  /** The run behind `AllFailWithPool`: five rotations, then five plain
      retries. */
  lemma AllFailPooledRun(confirmed: Stream)
    requires forall k :: !Succeeds(confirmed, k)
    ensures ExecuteSwap(true, confirmed, 0, 0) ==
      SubmitRun(false, 11, [Rotate, Rotate, Rotate, Rotate, Rotate, Plain, Plain, Plain, Plain, Plain])
  {
    var run := ExecuteSwap(true, confirmed, 0, 0);
    AllFail(true, confirmed, 0);
    assert forall i :: 0 <= i < 5 ==> run.retries[i] == Rotate;
    assert forall i :: 5 <= i < 10 ==> run.retries[i] == Plain;
  }

  /** Every submission fails and there is no pool: 10 plain retries, the
      connection never changes, then the error propagates. */
  lemma AllFailWithoutPool(c: Connection, confirmed: Stream)
    requires |c.pool.proxies| == 0
    requires forall k :: !Succeeds(confirmed, k)
    ensures SubmitSwap(c, confirmed, 0).run ==
      SubmitRun(false, 11, [Plain, Plain, Plain, Plain, Plain, Plain, Plain, Plain, Plain, Plain])
    ensures SubmitSwap(c, confirmed, 0).conn == c
  {
    AllFail(false, confirmed, 0);
    var r := SubmitSwap(c, confirmed, 0);
    assert forall i :: 0 <= i < 10 ==> r.run.retries[i] == Plain;
  }
}

=== FILE: wrappers.dfy ===
/** Option and Result, the two failure-carrying datatypes used across the model. */
module Wrappers {

  /** A value that may be absent; JavaScript's `null` / `undefined` / `NaN` map to `None`. */
  datatype Option<+T> = None | Some(value: T)

  /** The outcome of an operation that can stop the process with an error. */
  datatype Result<+T, +E> = Ok(value: T) | Err(error: E)
}
